=== FILE: README.md ===
# Investment analytics core, modelled in Dafny

The dashboard analyses a monthly crypto trading strategy and the price
history of a set of coins. Underneath its widgets sit two small cores, and
this project models both of them:

- **Return-series statistics** (`components/tab_main.py`, with copies in
  `components/basic_metrics.py`):
  - the maximum drawdown of a return series and the longest streak of losing
    periods;
  - the profit / loss / hodl share classifier;
  - the profit-and-loss description table;
  - the exact part of the strategy summary. The latest yield is replaced by the
    month-over-month return (MoM). The yields are then split into a profit side
    and a loss side, and counts, means, minima and maxima are reported. The
    `Maximum Loss` / `Minimum Loss` labels are crossed on purpose.
- **Correlation structure** (`components/tab_corr.py`, `components/tab_data.py`):
  - a labelled correlation matrix becomes a dictionary from each base coin to
    the coins it is negatively correlated with;
  - that structure is filtered by a threshold and a base-coin selection for
    the scatter chart;
  - the list of columns for the line chart is built;
  - rows with a repeated timestamp are dropped before percent change and
    correlation are computed.

Floats are modelled as exact `real`s. A pandas NaN in a result is `None`. A
Python dictionary is an insertion-ordered `Dict` (key order plus lookup map), so
iteration order is part of every statement about it. Exceptions the code raises
(IndexError on an empty table, KeyError on a missing key, ValueError when
nothing is left to describe) are `Failure` values.

Two files repeat code modelled here, and one member models each original and
its copy:
- `components/basic_metrics.py:16-41` repeats the share classifier and
  describe_profit_loss of `components/tab_main.py`. Its classifier reads the
  `Profit / Loss %` column of a table, where the original takes the yields
  series.
- `components/tab_data.py:39-78` repeats find_negative_correlation_coins and
  the trace filter of `components/tab_corr.py`. Its filter takes the threshold
  (default -0.5) and an optional selection as parameters, where the original
  reads both from the session state. The figure titles are built differently
  and are not modelled. `CorrelationCharts.Admitted` takes the selection as an
  `Option`, which covers both the absent and the empty selection.

The table cites the lines of `components/tab_main.py` and
`components/tab_corr.py`. It cites `components/tab_data.py` only for the data
tab's own starting threshold, -0.5. Both sliders share the bounds -1.0 and 0.0,
which are cited at `components/tab_corr.py:136`.

Files:
- `wrappers.dfy`: `Option` and `Result`.
- `seqs.dfy`: order-preserving filter, first-occurrence deduplication, sum,
  minimum, maximum and mean.
- `risk_metrics.dfy`: drawdown and loss streak.
- `return_shares.dfy`: the share classifier.
- `profit_loss.dfy`: the description table.
- `strategy_stats.dfy`: the strategy summary and the latest-price lookup.
- `correlation.dfy`: the matrix to structure step.
- `correlation_charts.dfy`: the scatter traces and line-chart columns.
- `row_dedup.dfy`: row deduplication.

The summary and the correlation code change data step by step in the source:
- the yields copy is overwritten in place;
- dictionaries are filled in nested loops;
- traces and chart columns are appended in loops.

These are methods with loops, each proved equal to a specification function.
The properties are then proved about that function. The pandas expressions
(drawdown, streak, shares, description, deduplication) are functions and lemmas.
All inputs are immutable values. So the source's "the caller's table is never
modified" holds by construction: the only in-place update is to the freshly
allocated yields array inside `StrategyStats.CalculateStrategyStats`.

## Model

| member | source | states |
|---|---|---|
| RiskMetrics.Wealth | components/tab_main.py:87 | the cumulative product of 1 + r stays strictly positive when every return exceeds -1 |
| RiskMetrics.Peak | components/tab_main.py:88 | the running peak is at least the wealth at the same period |
| RiskMetrics.PeakIsRunningMaximum | components/tab_main.py:88 | the running peak bounds every earlier wealth value and equals one of them (it is the cumulative maximum) |
| RiskMetrics.PeakNonDecreasing | components/tab_main.py:88 | the running peak never decreases |
| RiskMetrics.DrawdownAt | components/tab_main.py:89 | every per-period drawdown lies in (-1, 0] |
| RiskMetrics.LowestDrawdown | components/tab_main.py:90 | the minimum over the first n+1 drawdowns bounds them all and is one of them |
| RiskMetrics.MaxDrawdown | components/tab_main.py:87-90 | the maximum drawdown lies in (-1, 0], is at most every per-period drawdown, and is attained at some period |
| RiskMetrics.MaxDrawdownZeroIff | components/tab_main.py:87-90 | the maximum drawdown is 0 exactly when the wealth index never decreases |
| RiskMetrics.NonDecreasingWealthNoDrawdown | components/tab_main.py:87-90 | a never-decreasing wealth index gives drawdown 0 |
| RiskMetrics.NoDrawdownNonDecreasingWealth | components/tab_main.py:87-90 | drawdown 0 means the wealth index never decreases |
| RiskMetrics.WealthGrows | components/tab_main.py:87 | without negative returns the wealth index is non-decreasing |
| RiskMetrics.NoLossNoDrawdown | components/tab_main.py:87-90 | without negative returns the maximum drawdown is 0 |
| RiskMetrics.SinglePeriodNoDrawdown | components/tab_main.py:87-90 | the wealth index starts at 1 + r0, so a single period never shows a drawdown |
| RiskMetrics.MaxDrawdownExample | components/tab_main.py:87-90 | returns 10%, -20%, 10% give a maximum drawdown of -20% |
| RiskMetrics.LossRunEndingAt | components/tab_main.py:104-105 | the per-period group-cumsum of the loss indicator is at most the number of periods so far |
| RiskMetrics.RunEndingAtIsRun | components/tab_main.py:104-105 | the per-period value counts a run of consecutive strictly negative returns ending at that period |
| RiskMetrics.RunWithinRunEndingAt | components/tab_main.py:104-105 | any run of losses ending at a period is no longer than that period's value |
| RiskMetrics.LongestLossRunUpTo | components/tab_main.py:106 | the maximum of the per-period values bounds them all and is one of them |
| RiskMetrics.DurationOfLosses | components/tab_main.py:104-108 | the loss duration is at most the series length |
| RiskMetrics.DurationIsLongestRun | components/tab_main.py:104-108 | the loss duration is the length of the longest run of consecutive strictly negative returns: such a run exists and none is longer |
| RiskMetrics.DurationZeroIff | components/tab_main.py:104-108 | the loss duration is 0 exactly when no return is negative |
| RiskMetrics.DurationExample | components/tab_main.py:104-108 | returns -10%, -10%, 10%, -10% give a loss duration of 2 |
| ReturnShares.Classify | components/tab_main.py:254 | a return is PROFIT iff > 0, LOSS iff < 0, HODL iff == 0 |
| ReturnShares.CountOf | components/tab_main.py:255 | a category count never exceeds the series length |
| ReturnShares.Share | components/tab_main.py:255 | a normalised share lies in (0, 1] and times the length gives the count |
| ReturnShares.StrategyShare | components/tab_main.py:254-257 | a category is present exactly when it occurs; each present share is count / length in (0, 1] |
| ReturnShares.CountsPartition | components/tab_main.py:254-255 | every return is counted in exactly one category |
| ReturnShares.SharesSumToOne | components/tab_main.py:254-257 | the present shares of a non-empty series add up to 1 |
| ReturnShares.ShareExample | components/tab_main.py:254-257 | returns 10%, -5%, 0, 20%, -10% give PROFIT 0.4, LOSS 0.4, HODL 0.2 |
| ProfitLoss.SurvivingReturns | components/tab_main.py:271-274 | a return survives iff it is non-zero and, when outliers are excluded, within [-5, 5] inclusive |
| ProfitLoss.Describe | components/tab_main.py:276 | count is the group size; the mean times the count is the group's total; min <= mean <= max; min and max are members and bound every member |
| ProfitLoss.DescribeProfitLoss | components/tab_main.py:271-280 | the table fails (ValueError from `unstack`) exactly when every return is 0 or, with outliers excluded, outside [-5, 5]; otherwise it has at least one row |
| ProfitLoss.NoZeroInEitherGroup | components/tab_main.py:274-275 | the profit group holds only positive, the loss group only negative returns, whatever the flag |
| ProfitLoss.GroupCountsAddUp | components/tab_main.py:274-277 | when the table exists, its Profit and Loss counts add up to the number of surviving returns, which is positive |
| ProfitLoss.AbsOfPositives | components/tab_main.py:276 | the absolute values of positive returns are the returns themselves |
| ProfitLoss.AbsOfNegatives | components/tab_main.py:276 | the absolute values of negative returns are exactly their negations |
| ProfitLoss.SumOfMagnitudes | components/tab_main.py:276 | the absolute values of a group of losses add up to the negated total of the group |
| ProfitLoss.LossGroupBounds | components/tab_main.py:276 | a loss group's description has a positive minimum, its minimum and maximum are negations of losses in the group, and it bounds the magnitude of every loss |
| ProfitLoss.LossGroupMean | components/tab_main.py:276 | a loss group's mean is the average magnitude: mean times count is the negated total of the losses |
| ProfitLoss.LossGroupMembers | components/tab_main.py:276 | a loss group's minimum and maximum are negations of values of any sequence holding the group |
| ProfitLoss.LossesMembership | components/tab_main.py:274-275 | the loss group holds exactly the strictly negative surviving returns |
| ProfitLoss.ProfitRowSummarisesGains | components/tab_main.py:275-278 | the Profit row exists iff a positive return survives; it is exactly the description of the surviving gains (so its min and max are gains, its mean their average), it counts them and its min/max bound each one |
| ProfitLoss.LossRowSummarisesLosses | components/tab_main.py:275-278 | the Loss row exists iff a negative return survives; it counts them and its min/max bound each absolute value |
| ProfitLoss.TableRows | components/tab_main.py:274-278 | when the table exists, its Loss and Profit rows are the descriptions of the surviving losses and gains |
| ProfitLoss.LossRowMagnitudes | components/tab_main.py:274-278 | the Loss row's minimum and maximum are absolute values of actual input returns |
| ProfitLoss.LossRowMean | components/tab_main.py:274-278 | the Loss row's mean is the average absolute loss: mean times count is the negated total of the surviving losses |
| ProfitLoss.LossesAreReturns | components/tab_main.py:274-275 | every member of the loss group is an input return |
| ProfitLoss.OutliersExcluded | components/tab_main.py:271-272 | with outliers excluded, no row reports an absolute return above 5 |
| StrategyStats.CurrentPriceAsWritten | components/tab_main.py:155-160 | as written, only a raised exception reaches the Sell price fallback; a connection failure (None from the lookup) fails the summary |
| StrategyStats.CurrentPrice | components/tab_main.py:155-160 | the intended price: the quote when one came back, otherwise the latest Sell price |
| StrategyStats.ConnectionFailureSkipsFallback | components/tab_main.py:155-167 | for a connection failure, the as-written code fails and the intended fallback gives the Sell price |
| StrategyStats.CurrentPriceAgrees | components/tab_main.py:155-160 | apart from connection failures, the as-written and intended prices coincide |
| StrategyStats.RelativeChange | components/tab_main.py:166-171 | MoM and ROI: the base times (1 + change) is the current amount; from a positive base the change is positive exactly when the amount grew and zero exactly when it stayed |
| StrategyStats.Yields | components/tab_main.py:175-176 | the yields copy equals the Profit / Loss % column except at the last index, which holds MoM |
| StrategyStats.Assemble | components/tab_main.py:166-226 | Life Period is the row count; MoM and ROI are the relative changes of the price and of the balance; a side's mean is NaN exactly when the side is empty |
| StrategyStats.AssembleReportsYields | components/tab_main.py:178-225 | Profit Count and Loss Count are the classifier's Profit and Loss counts of the yields; Maximum / Minimum Profit are the profit side's maximum / minimum; Mean Profit and Mean Loss are the means of the profit and loss sides; the crossed Maximum / Minimum Loss are the loss side's minimum / maximum; Max Drawdown and Max Periods in Loss are the return-series drawdown and loss streak of the same yields |
| StrategyStats.SideCountsAreCategoryCounts | components/tab_main.py:129-130 | the `> 0` and `< 0` masks select exactly as many yields as the share classifier counts as Profit and as Loss |
| StrategyStats.SummaryAt | components/tab_main.py:162-226 | for a given current price: Life Period is the row count, MoM is the change from the latest purchase price to that price, ROI the change from the opening balance to the latest quantity at that price |
| StrategyStats.StrategySummary | components/tab_main.py:155-226 | with the intended fallback only an empty table fails (IndexError); MoM is taken against the quote or, when the lookup failed, the latest Sell price |
| StrategyStats.CalculateStrategyStats | components/tab_main.py:155-226 | as the code runs: an empty table fails with IndexError, a connection failure fails with TypeError on the None price, and every other lookup gives exactly the intended summary, built through an in-place overwrite of the yields copy |
| StrategyStats.CountsWithinLifePeriod | components/tab_main.py:179-208 | Life Period is the row count; Profit Count + Loss Count <= Life Period, with equality when no yield is 0 |
| StrategyStats.CrossedLossLabels | components/tab_main.py:189-221 | Maximum Loss and Minimum Loss are values of the yields copy; Maximum Loss <= Minimum Loss < 0 and they bound every loss, so they are the loss-side minimum and maximum; both NaN without losses |
| StrategyStats.ProfitLabels | components/tab_main.py:179-220 | Minimum Profit and Maximum Profit are values of the yields copy; 0 < Minimum Profit <= Maximum Profit and they bound every profit, so they are the profit-side minimum and maximum; both NaN without profits |
| StrategyStats.RunAtMostLosses | components/tab_main.py:104-105 | a loss streak ending at a period is no longer than the number of losses so far |
| StrategyStats.StreakWithinLossCount | components/tab_main.py:203-225 | Max Periods in Loss <= Loss Count, and one is 0 exactly when the other is |
| NegativeCorrelation.Dict.Insert | components/tab_corr.py:51 | a dictionary assignment keeps keys unique: a new key is appended, an existing one keeps its place |
| NegativeCorrelation.IndexOf | components/tab_corr.py:48 | the position of a column label holds that label |
| NegativeCorrelation.Qualifies | components/tab_corr.py:49 | a coin is never paired with itself, and a NaN cell never qualifies |
| NegativeCorrelation.NegativeRowUpTo | components/tab_corr.py:46-51 | the inner dictionary stays consistent while columns are scanned |
| NegativeCorrelation.NegativeRowUpToEntries | components/tab_corr.py:48-51 | after n columns, a column is present iff it differs from the base and its cell is < 0 (NaN excluded), with the cell's value |
| NegativeCorrelation.NegativeRowUpToBefore | components/tab_corr.py:48-51 | after n columns every key of the inner dictionary is a column among the first n |
| NegativeCorrelation.NegativeRowUpToOrder | components/tab_corr.py:48-51 | the inner dictionary iterates in column order |
| NegativeCorrelation.NegativeRow | components/tab_corr.py:46-51 | a base coin's inner dictionary is consistent |
| NegativeCorrelation.NegativeRowEntries | components/tab_corr.py:46-53 | a base coin's inner dictionary holds exactly the other coins with a negative cell, with their values, in column order |
| NegativeCorrelation.NegativeStructureUpTo | components/tab_corr.py:45-53 | after n rows the dictionary is well formed and its keys are the first n row labels, in row order |
| NegativeCorrelation.NegativeStructureUpToRows | components/tab_corr.py:45-53 | after n rows each of the first n row labels maps to the inner dictionary built from its own row |
| NegativeCorrelation.NegativeStructure | components/tab_corr.py:43-55 | every row label becomes a key, in index order, even with an empty inner dictionary |
| NegativeCorrelation.NegativeStructureEntries | components/tab_corr.py:43-55 | keys are exactly the row labels; no self-pair and no non-negative value; a pair is present iff its cell is negative, with that value |
| NegativeCorrelation.NegativeCorrelationRow | components/tab_corr.py:46-51 | the inner loop builds exactly the specified inner dictionary |
| NegativeCorrelation.FindNegativeCorrelationCoins | components/tab_corr.py:43-55 | the nested loops build exactly the specified structure |
| CorrelationCharts.RowTracesMembership | components/tab_corr.py:74-75 | a base coin gets a trace exactly for each of its coins with a value strictly below the threshold |
| CorrelationCharts.RowTraces | components/tab_corr.py:74-82 | one base coin gives at most one trace per coin of its entry, each starting at that base with a value below the threshold |
| CorrelationCharts.TracesUpToMembership | components/tab_corr.py:70-75 | after n base coins, a trace is drawn iff its base is admitted and its coin's value is below the threshold |
| CorrelationCharts.TracesUpToFiltered | components/tab_corr.py:70-82 | after n base coins every trace has an admitted base coin and a value below the threshold |
| CorrelationCharts.Traces | components/tab_corr.py:69-82 | every trace in the figure has an admitted base coin and a value below the threshold |
| CorrelationCharts.TracesMembership | components/tab_corr.py:69-75 | an absent (None) or empty selection admits every base, a non-empty one only listed bases; only values strictly below the threshold are drawn |
| CorrelationCharts.BaseCoinTraces | components/tab_corr.py:74-82 | the inner loop appends exactly the specified traces of one base coin |
| CorrelationCharts.NegativeCorrelationTraces | components/tab_corr.py:69-82 | the loops with `continue` produce exactly the specified traces, in dictionary order |
| CorrelationCharts.StructureWellShaped | components/tab_corr.py:43-55 | the structure built from a matrix has consistent inner dictionaries |
| CorrelationCharts.TraceIffNegativePair | components/tab_corr.py:43-75 | from matrix to figure: a pair is drawn with value v iff the coins differ, the cell is v, v < 0, v < threshold and the base is admitted |
| CorrelationCharts.MaximumThresholdShowsEveryPair | components/tab_corr.py:136 | at the slider maximum 0.0, every negative pair of an admitted base is drawn |
| CorrelationCharts.DataTabDefaultShowsStrongPairs | components/tab_data.py:101 | at the data tab's starting threshold -0.5 (also its filter's default), a numeric pair of distinct coins is drawn iff its correlation is below -0.5 and its base is admitted |
| CorrelationCharts.MinimumThresholdShowsNothing | components/tab_corr.py:136 | at the slider minimum -1.0 nothing is drawn, since correlations are never below -1 |
| CorrelationCharts.BelowThresholdMembership | components/tab_corr.py:103-105 | a coin of an entry is a candidate iff its value is below the threshold |
| CorrelationCharts.CandidatesMembership | components/tab_corr.py:100-105 | the candidates are the selected bases and their coins below the threshold |
| CorrelationCharts.AbsorbRow | components/tab_corr.py:103-105 | absorbing n coins of an entry keeps the list's length or grows it by at most n |
| CorrelationCharts.ChartSeriesUpTo | components/tab_corr.py:100-105 | a failure names a base coin without an entry; a success means each of the first n selected bases has one |
| CorrelationCharts.ChartSeries | components/tab_corr.py:98-105 | a failure names a base coin without an entry (the KeyError); a success means every selected base has one |
| CorrelationCharts.AbsorbRowIsDedup | components/tab_corr.py:103-105 | appending unseen coins below the threshold extends a first-occurrence deduplication |
| CorrelationCharts.ChartSeriesIsDedup | components/tab_corr.py:99-105 | the column list is the first-occurrence deduplication of the candidates |
| CorrelationCharts.ChartSeriesUpToFailure | components/tab_corr.py:103 | the lookup fails iff a selected base has no entry, and fails on the first such base |
| CorrelationCharts.FailurePersists | components/tab_corr.py:103 | once the lookup has failed, later bases do not change the outcome |
| CorrelationCharts.ChartSeriesContents | components/tab_corr.py:99-105 | succeeds iff every selected base has an entry; the list has no duplicates, contains every selected base and exactly the coins below the threshold of some selected base |
| CorrelationCharts.AbsorbBelowThreshold | components/tab_corr.py:103-105 | the inner loop appends exactly the specified coins |
| CorrelationCharts.LineChartSeries | components/tab_corr.py:98-105 | the loop builds exactly the specified list or stops with the KeyError base |
| RowDedup.IsDuplicated | components/tab_corr.py:128 | a row is marked exactly when an earlier row has the same key value |
| RowDedup.DuplicateLabels | components/tab_corr.py:128 | every label to drop is one of the table's labels |
| RowDedup.WithoutLabels | components/tab_corr.py:129 | dropping by label keeps exactly the rows whose label is not listed, and never adds rows |
| RowDedup.DropDuplicates | components/tab_corr.py:127-129 | a missing key column fails with KeyError naming it; otherwise the result keeps the columns and holds only input rows, no more of them than before |
| RowDedup.KeepFirst | components/tab_corr.py:127-129 | the reference keeps only input rows |
| RowDedup.DroppedIffDuplicated | components/tab_corr.py:128 | with a unique index, a label is dropped iff its row repeats an earlier key value |
| RowDedup.WithoutDuplicatesPrefix | components/tab_corr.py:128-129 | with a unique index, mask-and-drop on any prefix keeps its first rows |
| RowDedup.DropDuplicatesKeepsFirst | components/tab_corr.py:127-129 | with a unique index, the result is the first row of each key value, in original order |
| RowDedup.KeepFirstValues | components/tab_corr.py:127-129 | the kept key values are the first-occurrence deduplication of the key column |
| RowDedup.KeepFirstLabels | components/tab_corr.py:127-129 | keeping a subsequence keeps the index unique |
| RowDedup.KeepFirstOfDistinct | components/tab_corr.py:127-129 | rows whose key values are already distinct all stay |
| RowDedup.DropDuplicatesContents | components/tab_corr.py:127-129 | with a unique index: distinct key values, the same set of values, only input rows, and a second application changes nothing |
| RowDedup.SharedLabelDropsFirstOccurrence | components/tab_corr.py:128-129 | with a repeated index label, both rows are dropped, while the reference keeps one |
| RowDedup.CleanedTimestampsDistinct | components/tab_corr.py:162-168 | after deduplication on datetime, no two rows share a timestamp, so percent change and correlation see one row per instant |
| Seqs.Filter | components/tab_main.py:274 | a boolean mask keeps exactly the elements that satisfy it, never more than the input |
| Seqs.FilterSplit | components/tab_main.py:275 | two disjoint masks select at most the whole series together, exactly all when they cover it |
| Seqs.Dedup | components/tab_corr.py:101-105 | first-occurrence deduplication has no repeats and the same members |
| Seqs.Min | components/tab_main.py:184 | the minimum is a member and bounds every member |
| Seqs.Max | components/tab_main.py:185 | the maximum is a member and bounds every member |
| Seqs.Mean | components/tab_main.py:181 | the mean times the count is the total; the mean lies between the minimum and the maximum |

## Left out

- Sharpe and Sortino ratios (`components/tab_main.py:33-75`): they need the standard deviation and a square root, which are floating-point numerics.
- The compound-interest return (`components/tab_main.py:172`): a fractional power has no exact counterpart over `real`.
- Medians, standard deviations and quartiles of the aggregations and of `describe()`: pandas floating-point internals. Count, mean, minimum and maximum are modelled.
- The side totals (`Total`, lines 180 and 190): they are aggregated but never reported.
- The price service itself (`components/tab_main.py:10-31`): network I/O. Its outcome is the `PriceLookup` parameter: a quote, a connection failure that returns None, or any other exception.
- The `Sell price` column (`components/tab_main.py:160`): the fallback reads it, but the documented input columns (lines 117-122) do not include it, and a table without it raises KeyError inside the handler. `TradeRow` always carries a sell price, so that KeyError is not modelled.
- StrategyStats.SummaryAt: requires a non-zero latest purchase price and a non-zero opening balance (`Divisible`). pandas would produce inf or NaN instead.
- StrategyStats.Assemble: requires `Divisible` as well, for the same reason.
- StrategyStats.StrategySummary: requires `Divisible` as well, for the same reason.
- StrategyStats.CalculateStrategyStats: requires `Divisible` as well, for the same reason.
- StrategyStats.Assemble: reports no drawdown (`None`) when a yield is -100% or worse. RiskMetrics.MaxDrawdown is defined only for returns above -1, and the floating-point value pandas computes then is not modelled.
- RiskMetrics.MaxDrawdown and RiskMetrics.DurationOfLosses: require a non-empty series. pandas returns NaN for an empty one.
- NegativeCorrelation.FindNegativeCorrelationCoins: requires distinct row and column labels. With repeated labels, `loc` returns a frame and the comparison raises.
- Pearson correlation and percent change (`components/tab_corr.py:165-168`, `components/tab_data.py:92`): the matrix is an input. A NaN cell is `None`.
- Missing returns: every input return is a number. In the source a NaN return is HODL in the share classifier (`components/tab_main.py:254-257`), and, without outlier exclusion, it falls into the Loss group of the description table, since `NaN > 0` is false (`components/tab_main.py:274-276`). `describe` then leaves it out of the count, mean, minimum and maximum, so a series whose only non-zero returns are NaN still gets a Loss row, with count 0.
- The order of rows in the share table: `value_counts` sorts by frequency. The model gives the shares as a map.
- RowDedup: a row index is an integer label, and cell values are text, a number or blank. Type conversion of the sheet's columns is not modelled.
- Plot construction (figure titles, layout, hidden legend entries, log scale), Streamlit widgets and session state, caching, the spreadsheet connectors, authentication, the exchange tab and forecasting: UI, I/O and external libraries. Threshold and selection are plain parameters. The slider bounds and defaults are constants.

## Findings

| source | as written | input that shows it | evidently intended | confidence | as-written member | corrected member |
|---|---|---|---|---|---|---|
| components/tab_main.py:155-167 | The price lookup catches connection errors, prints them and returns None. The `except` around it only sees other exceptions, so the Sell price fallback is skipped, and line 167 multiplies the quantity by None (TypeError). | The quote service is unreachable (connection error, timeout or redirect loop). | Any failed download shows the warning and uses the latest Sell price. | high; not executed | StrategyStats.CurrentPriceAsWritten (with StrategyStats.ConnectionFailureSkipsFallback and StrategyStats.CalculateStrategyStats) | StrategyStats.CurrentPrice |

=== FILE: correlation.dfy ===
/** find_negative_correlation_coins: from a correlation matrix, the nested
    dictionary that maps every base coin to the coins it is negatively
    correlated with and the correlation values. */
module NegativeCorrelation {
  import opened Wrappers
  import opened Seqs

  type Coin = string

  /** An insertion-ordered dictionary keyed by coin: `keys` is the iteration
      order, `at` the lookup. */
  datatype Dict<V> = Dict(keys: seq<Coin>, at: map<Coin, V>)
  {
    ghost predicate Valid()
    {
      Distinct(keys) && forall k :: k in at <==> k in keys
    }

    /** `d[k] = v`: a new key goes to the end of the iteration order, an
        existing key keeps its place and gets the new value. */
    function Insert(k: Coin, v: V): (r: Dict<V>)
      requires Valid()
      ensures r.Valid()
      ensures r.at == at[k := v]
      ensures k in keys ==> r.keys == keys
      ensures k !in keys ==> r.keys == keys + [k]
    {
      if k in keys then Dict(keys, at[k := v]) else Dict(keys + [k], at[k := v])
    }
  }

  /** A correlation matrix with row labels `index`, column labels `columns`
      and one row of cells per index label; `None` stands for a NaN cell. */
  datatype Matrix = Matrix(index: seq<Coin>, columns: seq<Coin>, cells: seq<seq<Option<real>>>)
  {
    predicate WellFormed()
    {
      && Distinct(index)
      && Distinct(columns)
      && |cells| == |index|
      && forall i | 0 <= i < |cells| :: |cells[i]| == |columns|
    }
  }

  /** `base_coin != coin and matrix.loc[base_coin, coin] < 0`; a NaN cell
      compares false. */
  predicate Qualifies(m: Matrix, i: nat, j: nat)
    requires m.WellFormed() && i < |m.index| && j < |m.columns|
    ensures m.index[i] == m.columns[j] ==> !Qualifies(m, i, j)
    ensures m.cells[i][j].None? ==> !Qualifies(m, i, j)
  {
    m.index[i] != m.columns[j] && m.cells[i][j].Some? && m.cells[i][j].value < 0.0
  }

  /** Position of a coin in a label sequence. */
  function IndexOf(s: seq<Coin>, c: Coin): (k: nat)
    requires c in s
    ensures k < |s| && s[k] == c
  {
    if s[0] == c then 0 else 1 + IndexOf(s[1..], c)
  }

  lemma IndexOfDistinct(s: seq<Coin>, j: nat)
    requires Distinct(s) && j < |s|
    ensures IndexOf(s, s[j]) == j
  {
  }

  /** The inner dictionary for row i after the first n columns. */
  function NegativeRowUpTo(m: Matrix, i: nat, n: nat): (r: Dict<real>)
    requires m.WellFormed() && i < |m.index| && n <= |m.columns|
    ensures r.Valid()
  {
    if n == 0 then Dict([], map[])
    else
      var prev := NegativeRowUpTo(m, i, n - 1);
      if Qualifies(m, i, n - 1) then prev.Insert(m.columns[n - 1], m.cells[i][n - 1].value) else prev
  }

  /** The inner dictionary of base coin `m.index[i]`. */
  function NegativeRow(m: Matrix, i: nat): (r: Dict<real>)
    requires m.WellFormed() && i < |m.index|
    ensures r.Valid()
  {
    NegativeRowUpTo(m, i, |m.columns|)
  }

  /** After n columns the row holds exactly the qualifying columns among the
      first n, with their matrix values. */
  lemma {:induction false} NegativeRowUpToEntries(m: Matrix, i: nat, n: nat)
    requires m.WellFormed() && i < |m.index| && n <= |m.columns|
    ensures forall c | c in NegativeRowUpTo(m, i, n).at :: c in m.columns[..n]
    ensures forall j | 0 <= j < n :: m.columns[j] in NegativeRowUpTo(m, i, n).at <==> Qualifies(m, i, j)
    ensures forall j | 0 <= j < n && Qualifies(m, i, j) ::
      NegativeRowUpTo(m, i, n).at[m.columns[j]] == m.cells[i][j].value
  {
    if n > 0 {
      var prev, r := NegativeRowUpTo(m, i, n - 1), NegativeRowUpTo(m, i, n);
      NegativeRowUpToEntries(m, i, n - 1);
      var c := m.columns[n - 1];
      assert m.columns[..n] == m.columns[..n - 1] + [c];
      assert forall j | 0 <= j < n - 1 :: m.columns[j] != c;
      if Qualifies(m, i, n - 1) {
        assert r.at == prev.at[c := m.cells[i][n - 1].value];
      } else {
        assert r == prev;
      }
    }
  }

  /** Every key of the row after n columns is one of the first n columns. */
  lemma NegativeRowUpToBefore(m: Matrix, i: nat, n: nat)
    requires m.WellFormed() && i < |m.index| && n <= |m.columns|
    ensures forall k | 0 <= k < |NegativeRowUpTo(m, i, n).keys| ::
      NegativeRowUpTo(m, i, n).keys[k] in m.columns && IndexOf(m.columns, NegativeRowUpTo(m, i, n).keys[k]) < n
  {
    var r := NegativeRowUpTo(m, i, n);
    NegativeRowUpToEntries(m, i, n);
    forall k | 0 <= k < |r.keys|
      ensures r.keys[k] in m.columns && IndexOf(m.columns, r.keys[k]) < n
    {
      assert r.keys[k] in r.at;
      var j :| 0 <= j < n && m.columns[..n][j] == r.keys[k];
      IndexOfDistinct(m.columns, j);
    }
  }

  /** Every key is a column, and the keys follow the column order. */
  ghost predicate InColumnOrder(columns: seq<Coin>, keys: seq<Coin>)
  {
    && (forall k | 0 <= k < |keys| :: keys[k] in columns)
    && forall a, b | 0 <= a < b < |keys| :: IndexOf(columns, keys[a]) < IndexOf(columns, keys[b])
  }

  /** The row's iteration order is column order. */
  lemma {:induction false} NegativeRowUpToOrder(m: Matrix, i: nat, n: nat)
    requires m.WellFormed() && i < |m.index| && n <= |m.columns|
    ensures InColumnOrder(m.columns, NegativeRowUpTo(m, i, n).keys)
  {
    if n > 0 {
      var prev := NegativeRowUpTo(m, i, n - 1);
      NegativeRowUpToOrder(m, i, n - 1);
      if Qualifies(m, i, n - 1) {
        var c := m.columns[n - 1];
        KeysPrecedeColumn(m, i, n - 1);
        assert c !in prev.keys;
        assert NegativeRowUpTo(m, i, n).keys == prev.keys + [c];
        OrderedAppend(m.columns, prev.keys, c);
      } else {
        assert NegativeRowUpTo(m, i, n) == prev;
      }
    }
  }

  /** Every key of the row after n columns comes before column n. */
  lemma KeysPrecedeColumn(m: Matrix, i: nat, n: nat)
    requires m.WellFormed() && i < |m.index| && n < |m.columns|
    ensures forall k | 0 <= k < |NegativeRowUpTo(m, i, n).keys| ::
      && NegativeRowUpTo(m, i, n).keys[k] in m.columns
      && IndexOf(m.columns, NegativeRowUpTo(m, i, n).keys[k]) < IndexOf(m.columns, m.columns[n])
  {
    NegativeRowUpToBefore(m, i, n);
    IndexOfDistinct(m.columns, n);
  }

  /** Appending a column that comes after every listed key keeps the keys in
      column order. */
  lemma OrderedAppend(columns: seq<Coin>, keys: seq<Coin>, c: Coin)
    requires c in columns && InColumnOrder(columns, keys)
    requires forall k | 0 <= k < |keys| :: IndexOf(columns, keys[k]) < IndexOf(columns, c)
    ensures InColumnOrder(columns, keys + [c])
  {
    var r := keys + [c];
    forall a, b | 0 <= a < b < |r|
      ensures IndexOf(columns, r[a]) < IndexOf(columns, r[b])
    {
      assert r[a] == keys[a];
    }
  }

  /** The whole row: exactly the columns that qualify, with their matrix
      values, in column order. */
  lemma NegativeRowEntries(m: Matrix, i: nat)
    requires m.WellFormed() && i < |m.index|
    ensures var r := NegativeRow(m, i);
      forall c :: c in r.at ==> c in m.columns
    ensures var r := NegativeRow(m, i);
      forall j | 0 <= j < |m.columns| :: m.columns[j] in r.at <==> Qualifies(m, i, j)
    ensures var r := NegativeRow(m, i);
      forall j | 0 <= j < |m.columns| && Qualifies(m, i, j) :: r.at[m.columns[j]] == m.cells[i][j].value
    ensures var r := NegativeRow(m, i);
      forall a, b | 0 <= a < b < |r.keys| :: IndexOf(m.columns, r.keys[a]) < IndexOf(m.columns, r.keys[b])
  {
    NegativeRowUpToEntries(m, i, |m.columns|);
    NegativeRowUpToOrder(m, i, |m.columns|);
    assert m.columns[..|m.columns|] == m.columns;
  }

  /** The outer dictionary after the first n rows. */
  function NegativeStructureUpTo(m: Matrix, n: nat): (r: Dict<Dict<real>>)
    requires m.WellFormed() && n <= |m.index|
    ensures r.Valid()
    ensures r.keys == m.index[..n]
  {
    if n == 0 then Dict([], map[])
    else
      var prev := NegativeStructureUpTo(m, n - 1);
      assert m.index[..n] == m.index[..n - 1] + [m.index[n - 1]];
      assert m.index[n - 1] !in prev.keys;
      prev.Insert(m.index[n - 1], NegativeRow(m, n - 1))
  }

  /** After n rows, each of the first n row labels maps to its inner dictionary. */
  lemma {:induction false} NegativeStructureUpToRows(m: Matrix, n: nat)
    requires m.WellFormed() && n <= |m.index|
    ensures forall i | 0 <= i < n ::
      m.index[i] in NegativeStructureUpTo(m, n).at && NegativeStructureUpTo(m, n).at[m.index[i]] == NegativeRow(m, i)
  {
    if n > 0 {
      var prev := NegativeStructureUpTo(m, n - 1);
      var base := m.index[n - 1];
      var r := NegativeStructureUpTo(m, n);
      assert r.at == prev.at[base := NegativeRow(m, n - 1)];
      forall i | 0 <= i < n
        ensures m.index[i] in r.at && r.at[m.index[i]] == NegativeRow(m, i)
      {
        if i < n - 1 {
          NegativeStructureUpToRows(m, n - 1);
          assert m.index[i] != base;
        }
      }
    }
  }

  /** find_negative_correlation_coins as a value: one entry per base coin, in
      index order, each holding the row's negatively correlated coins. */
  function NegativeStructure(m: Matrix): (s: Dict<Dict<real>>)
    requires m.WellFormed()
    ensures s.Valid()
    ensures s.keys == m.index
    ensures forall i | 0 <= i < |m.index| :: m.index[i] in s.at && s.at[m.index[i]] == NegativeRow(m, i)
  {
    assert m.index[..|m.index|] == m.index;
    NegativeStructureUpToRows(m, |m.index|);
    NegativeStructureUpTo(m, |m.index|)
  }

  /** Every base coin of the matrix has an entry; an entry names only other
      coins, each with a strictly negative correlation taken from the matrix. */
  lemma NegativeStructureEntries(m: Matrix)
    requires m.WellFormed()
    ensures var s := NegativeStructure(m);
      forall b :: b in s.at <==> b in m.index
    ensures var s := NegativeStructure(m);
      forall b, c | b in s.at && c in s.at[b].at :: c in m.columns && b != c && s.at[b].at[c] < 0.0
    ensures var s := NegativeStructure(m);
      forall i, j | 0 <= i < |m.index| && 0 <= j < |m.columns| ::
        (m.columns[j] in s.at[m.index[i]].at <==> Qualifies(m, i, j))
        && (Qualifies(m, i, j) ==> s.at[m.index[i]].at[m.columns[j]] == m.cells[i][j].value)
  {
    var s := NegativeStructure(m);
    forall i | 0 <= i < |m.index|
      ensures forall c | c in s.at[m.index[i]].at :: c in m.columns && m.index[i] != c && s.at[m.index[i]].at[c] < 0.0
      ensures forall j | 0 <= j < |m.columns| ::
        (m.columns[j] in s.at[m.index[i]].at <==> Qualifies(m, i, j))
        && (Qualifies(m, i, j) ==> s.at[m.index[i]].at[m.columns[j]] == m.cells[i][j].value)
    {
      NegativeRowEntries(m, i);
      forall c | c in s.at[m.index[i]].at
        ensures m.index[i] != c && s.at[m.index[i]].at[c] < 0.0
      {
        var j := IndexOf(m.columns, c);
        assert Qualifies(m, i, j);
      }
    }
    forall b, c | b in s.at && c in s.at[b].at
      ensures c in m.columns && b != c && s.at[b].at[c] < 0.0
    {
      var i := IndexOf(m.index, b);
    }
  }

  /** The inner loop of find_negative_correlation_coins: one base coin's
      dictionary, filled column by column. */
  method NegativeCorrelationRow(m: Matrix, i: nat) returns (row: Dict<real>)
    requires m.WellFormed() && i < |m.index|
    ensures row == NegativeRow(m, i)
  {
    row := Dict([], map[]);
    var j := 0;
    while j < |m.columns|
      invariant 0 <= j <= |m.columns|
      invariant row == NegativeRowUpTo(m, i, j)
    {
      if m.index[i] != m.columns[j] && m.cells[i][j].Some? && m.cells[i][j].value < 0.0 {
        row := row.Insert(m.columns[j], m.cells[i][j].value);
      }
      j := j + 1;
    }
  }

  /** The outer loop of find_negative_correlation_coins: one entry per row
      label, in index order. */
  method FindNegativeCorrelationCoins(m: Matrix) returns (s: Dict<Dict<real>>)
    requires m.WellFormed()
    ensures s == NegativeStructure(m)
  {
    s := Dict([], map[]);
    var i := 0;
    while i < |m.index|
      invariant 0 <= i <= |m.index|
      invariant s == NegativeStructureUpTo(m, i)
    {
      var row := NegativeCorrelationRow(m, i);
      s := s.Insert(m.index[i], row);
      i := i + 1;
    }
  }
}

=== FILE: correlation_charts.dfy ===
/** What the two correlation charts draw from the negative-correlation
    structure: the scatter traces of visualize_negative_correlations (base coin
    selection and correlation threshold) and the list of columns plotted by
    visualize_line_chart. */
module CorrelationCharts {
  import opened Wrappers
  import opened Seqs
  import opened NegativeCorrelation

  /** Threshold the standalone data tab starts with. */
  const DataTabDefaultThreshold: real := -0.5
  /** Both threshold sliders run from -1.0 to 0.0; the correlation tab starts at 0.0. */
  const SliderMinimum: real := -1.0
  const SliderMaximum: real := 0.0

  /** One drawn line from a base coin to a negatively correlated coin. */
  datatype Trace = Trace(base: Coin, coin: Coin, correlation: real)

  /** An absent or empty selection shows every base coin. */
  predicate Admitted(selection: Option<seq<Coin>>, base: Coin)
  {
    selection.None? || |selection.value| == 0 || base in selection.value
  }

  /** A structure whose outer and inner dictionaries are consistent. */
  ghost predicate WellShaped(s: Dict<Dict<real>>)
  {
    s.Valid() && forall b | b in s.at :: s.at[b].Valid()
  }

  /** The traces of one base coin, after its first n correlated coins. */
  function RowTraces(base: Coin, row: Dict<real>, threshold: real, n: nat): (ts: seq<Trace>)
    requires row.Valid() && n <= |row.keys|
    ensures |ts| <= n
    ensures forall t | t in ts :: t.base == base && t.correlation < threshold
  {
    if n == 0 then []
    else
      var c := row.keys[n - 1];
      RowTraces(base, row, threshold, n - 1) + (if row.at[c] < threshold then [Trace(base, c, row.at[c])] else [])
  }

  /** One base coin gets a trace exactly for each of its first n coins whose
      correlation is below the threshold. */
  lemma {:induction false} RowTracesMembership(base: Coin, row: Dict<real>, threshold: real, n: nat, t: Trace)
    requires row.Valid() && n <= |row.keys|
    ensures t in RowTraces(base, row, threshold, n) <==>
      t.base == base && t.coin in row.keys[..n] && t.correlation == row.at[t.coin] && t.correlation < threshold
  {
    if n > 0 {
      RowTracesMembership(base, row, threshold, n - 1, t);
      assert row.keys[..n] == row.keys[..n - 1] + [row.keys[n - 1]];
    }
  }

  /** The traces of the first n base coins. */
  function TracesUpTo(s: Dict<Dict<real>>, selection: Option<seq<Coin>>, threshold: real, n: nat): (ts: seq<Trace>)
    requires WellShaped(s) && n <= |s.keys|
  {
    if n == 0 then []
    else
      var base := s.keys[n - 1];
      var row := s.at[base];
      TracesUpTo(s, selection, threshold, n - 1)
        + (if Admitted(selection, base) then RowTraces(base, row, threshold, |row.keys|) else [])
  }

  /** All traces visualize_negative_correlations adds to the figure, in order. */
  function Traces(s: Dict<Dict<real>>, selection: Option<seq<Coin>>, threshold: real): (ts: seq<Trace>)
    requires WellShaped(s)
    ensures forall t | t in ts :: Admitted(selection, t.base) && t.correlation < threshold
  {
    TracesUpToFiltered(s, selection, threshold, |s.keys|);
    TracesUpTo(s, selection, threshold, |s.keys|)
  }

  lemma {:induction false} TracesUpToFiltered(s: Dict<Dict<real>>, selection: Option<seq<Coin>>, threshold: real, n: nat)
    requires WellShaped(s) && n <= |s.keys|
    ensures forall t | t in TracesUpTo(s, selection, threshold, n) :: Admitted(selection, t.base) && t.correlation < threshold
  {
    if n > 0 {
      TracesUpToFiltered(s, selection, threshold, n - 1);
    }
  }

  /** A trace is drawn exactly for an admitted base coin, one of its coins,
      and a correlation below the threshold. */
  lemma {:induction false} TracesUpToMembership(s: Dict<Dict<real>>, selection: Option<seq<Coin>>, threshold: real, n: nat, t: Trace)
    requires WellShaped(s) && n <= |s.keys|
    ensures t in TracesUpTo(s, selection, threshold, n) <==>
      t.base in s.keys[..n] && Admitted(selection, t.base)
      && t.coin in s.at[t.base].at && t.correlation == s.at[t.base].at[t.coin] && t.correlation < threshold
  {
    if n > 0 {
      var base := s.keys[n - 1];
      var row := s.at[base];
      var prev := TracesUpTo(s, selection, threshold, n - 1);
      var added := if Admitted(selection, base) then RowTraces(base, row, threshold, |row.keys|) else [];
      assert TracesUpTo(s, selection, threshold, n) == prev + added;
      assert s.keys[..n] == s.keys[..n - 1] + [base];
      TracesUpToMembership(s, selection, threshold, n - 1, t);
      if t.base == base {
        assert base !in s.keys[..n - 1];
        assert t !in prev;
        RowTracesMembership(base, row, threshold, |row.keys|, t);
        assert row.keys[..|row.keys|] == row.keys;
      } else {
        assert t !in added;
        assert t.base in s.keys[..n] <==> t.base in s.keys[..n - 1];
      }
    }
  }

  lemma TracesMembership(s: Dict<Dict<real>>, selection: Option<seq<Coin>>, threshold: real, t: Trace)
    requires WellShaped(s)
    ensures t in Traces(s, selection, threshold) <==>
      t.base in s.at && Admitted(selection, t.base)
      && t.coin in s.at[t.base].at && t.correlation == s.at[t.base].at[t.coin] && t.correlation < threshold
  {
    TracesUpToMembership(s, selection, threshold, |s.keys|, t);
    assert s.keys[..|s.keys|] == s.keys;
  }

  /** The inner loop of visualize_negative_correlations for one base coin. */
  method BaseCoinTraces(base: Coin, row: Dict<real>, threshold: real) returns (traces: seq<Trace>)
    requires row.Valid()
    ensures traces == RowTraces(base, row, threshold, |row.keys|)
  {
    traces := [];
    var j := 0;
    while j < |row.keys|
      invariant 0 <= j <= |row.keys|
      invariant traces == RowTraces(base, row, threshold, j)
    {
      var coin := row.keys[j];
      if row.at[coin] < threshold {
        traces := traces + [Trace(base, coin, row.at[coin])];
      }
      j := j + 1;
    }
  }

  /** The outer loop of visualize_negative_correlations: base coins outside a
      non-empty selection are skipped. */
  method NegativeCorrelationTraces(s: Dict<Dict<real>>, selection: Option<seq<Coin>>, threshold: real)
    returns (traces: seq<Trace>)
    requires WellShaped(s)
    ensures traces == Traces(s, selection, threshold)
  {
    traces := [];
    var i := 0;
    while i < |s.keys|
      invariant 0 <= i <= |s.keys|
      invariant traces == TracesUpTo(s, selection, threshold, i)
    {
      var base := s.keys[i];
      if selection.Some? && |selection.value| > 0 && base !in selection.value {
        assert TracesUpTo(s, selection, threshold, i + 1) == traces;
        i := i + 1;
        continue;
      }
      var row := BaseCoinTraces(base, s.at[base], threshold);
      assert TracesUpTo(s, selection, threshold, i + 1) == traces + row;
      traces := traces + row;
      i := i + 1;
    }
  }

  lemma StructureWellShaped(m: Matrix)
    requires m.WellFormed()
    ensures WellShaped(NegativeStructure(m))
  {
    var s := NegativeStructure(m);
    forall b | b in s.at
      ensures s.at[b].Valid()
    {
      var i := IndexOf(m.index, b);
    }
  }

  /** From matrix to figure: the pair (index[i], columns[j]) is drawn with
      value v exactly when the two coins differ, the cell is v, v is negative,
      v is below the threshold and the base coin is admitted. */
  lemma TraceIffNegativePair(m: Matrix, selection: Option<seq<Coin>>, threshold: real, i: nat, j: nat, v: real)
    requires m.WellFormed() && i < |m.index| && j < |m.columns|
    ensures WellShaped(NegativeStructure(m))
    ensures Trace(m.index[i], m.columns[j], v) in Traces(NegativeStructure(m), selection, threshold) <==>
      m.index[i] != m.columns[j] && m.cells[i][j] == Some(v) && v < 0.0 && v < threshold
      && Admitted(selection, m.index[i])
  {
    var s := NegativeStructure(m);
    StructureWellShaped(m);
    NegativeRowEntries(m, i);
    assert s.at[m.index[i]] == NegativeRow(m, i);
    TracesMembership(s, selection, threshold, Trace(m.index[i], m.columns[j], v));
  }

  /** At the slider's maximum (the correlation tab's starting value) every
      negatively correlated pair of an admitted base coin is drawn. */
  lemma MaximumThresholdShowsEveryPair(m: Matrix, selection: Option<seq<Coin>>, i: nat, j: nat)
    requires m.WellFormed() && i < |m.index| && j < |m.columns|
    requires Qualifies(m, i, j) && Admitted(selection, m.index[i])
    ensures WellShaped(NegativeStructure(m))
    ensures Trace(m.index[i], m.columns[j], m.cells[i][j].value) in Traces(NegativeStructure(m), selection, SliderMaximum)
  {
    TraceIffNegativePair(m, selection, SliderMaximum, i, j, m.cells[i][j].value);
  }

  /** At the data tab's starting threshold a numeric pair of distinct coins
      is drawn exactly when its correlation is below -0.5 and its base coin is
      admitted; weaker negative correlations stay hidden. */
  lemma DataTabDefaultShowsStrongPairs(m: Matrix, selection: Option<seq<Coin>>, i: nat, j: nat)
    requires m.WellFormed() && i < |m.index| && j < |m.columns|
    ensures WellShaped(NegativeStructure(m))
    ensures m.cells[i][j].Some? ==>
      (Trace(m.index[i], m.columns[j], m.cells[i][j].value) in Traces(NegativeStructure(m), selection, DataTabDefaultThreshold) <==>
        m.index[i] != m.columns[j] && m.cells[i][j].value < -0.5 && Admitted(selection, m.index[i]))
  {
    StructureWellShaped(m);
    if m.cells[i][j].Some? {
      TraceIffNegativePair(m, selection, DataTabDefaultThreshold, i, j, m.cells[i][j].value);
    }
  }

  /** Correlations are never below -1, so at the slider's minimum nothing is drawn. */
  lemma MinimumThresholdShowsNothing(m: Matrix, selection: Option<seq<Coin>>)
    requires m.WellFormed()
    requires forall i, j | 0 <= i < |m.index| && 0 <= j < |m.columns| && m.cells[i][j].Some? :: m.cells[i][j].value >= -1.0
    ensures WellShaped(NegativeStructure(m))
    ensures forall t :: t !in Traces(NegativeStructure(m), selection, SliderMinimum)
  {
    var s := NegativeStructure(m);
    StructureWellShaped(m);
    NegativeStructureEntries(m);
    var ts := Traces(s, selection, SliderMinimum);
    forall t
      ensures t !in ts
    {
      TracesMembership(s, selection, SliderMinimum, t);
      if t.base in s.at && t.coin in s.at[t.base].at {
        var i := IndexOf(m.index, t.base);
        var j := IndexOf(m.columns, t.coin);
        assert Qualifies(m, i, j);
      }
    }
  }

  // ---- Line chart columns ----

  /** The plotted list after absorbing the first n coins of one base coin's
      entry: a coin is appended when it is not listed yet and its correlation
      is below the threshold. */
  function AbsorbRow(y: seq<Coin>, row: Dict<real>, threshold: real, n: nat): (r: seq<Coin>)
    requires row.Valid() && n <= |row.keys|
    ensures |y| <= |r| <= |y| + n
  {
    if n == 0 then y
    else
      var prev := AbsorbRow(y, row, threshold, n - 1);
      var c := row.keys[n - 1];
      if c !in prev && row.at[c] < threshold then prev + [c] else prev
  }

  /** The plotted list after the first n selected base coins, or the first
      selected base coin without an entry (the KeyError of the lookup). */
  function ChartSeriesUpTo(s: Dict<Dict<real>>, selected: seq<Coin>, threshold: real, n: nat): (r: Result<seq<Coin>, Coin>)
    requires WellShaped(s) && n <= |selected|
    ensures r.Failure? ==> r.error !in s.at
    ensures r.Success? ==> forall k | 0 <= k < n :: selected[k] in s.at
  {
    if n == 0 then Success([])
    else
      match ChartSeriesUpTo(s, selected, threshold, n - 1)
      case Failure(missing) => Failure(missing)
      case Success(y) =>
        var base := selected[n - 1];
        var withBase := if base in y then y else y + [base];
        if base !in s.at then Failure(base)
        else Success(AbsorbRow(withBase, s.at[base], threshold, |s.at[base].keys|))
  }

  /** The y columns of visualize_line_chart. */
  function ChartSeries(s: Dict<Dict<real>>, selected: seq<Coin>, threshold: real): (r: Result<seq<Coin>, Coin>)
    requires WellShaped(s)
    ensures r.Failure? ==> r.error !in s.at
    ensures r.Success? ==> forall b | b in selected :: b in s.at
  {
    ChartSeriesUpTo(s, selected, threshold, |selected|)
  }

  /** The coins of one base coin's entry below the threshold, in entry order. */
  function BelowThreshold(row: Dict<real>, threshold: real, n: nat): seq<Coin>
    requires row.Valid() && n <= |row.keys|
  {
    if n == 0 then []
    else
      var c := row.keys[n - 1];
      BelowThreshold(row, threshold, n - 1) + (if row.at[c] < threshold then [c] else [])
  }

  /** Every coin the chart names, repetitions included: each selected base
      coin followed by its coins below the threshold. */
  function Candidates(s: Dict<Dict<real>>, selected: seq<Coin>, threshold: real, n: nat): seq<Coin>
    requires WellShaped(s) && n <= |selected|
    requires forall k | 0 <= k < n :: selected[k] in s.at
  {
    if n == 0 then []
    else
      var base := selected[n - 1];
      Candidates(s, selected, threshold, n - 1) + [base] + BelowThreshold(s.at[base], threshold, |s.at[base].keys|)
  }

  lemma {:induction false} BelowThresholdMembership(row: Dict<real>, threshold: real, n: nat, c: Coin)
    requires row.Valid() && n <= |row.keys|
    ensures c in BelowThreshold(row, threshold, n) <==> c in row.keys[..n] && row.at[c] < threshold
  {
    if n > 0 {
      BelowThresholdMembership(row, threshold, n - 1, c);
      assert row.keys[..n] == row.keys[..n - 1] + [row.keys[n - 1]];
    }
  }

  lemma {:induction false} CandidatesMembership(s: Dict<Dict<real>>, selected: seq<Coin>, threshold: real, n: nat, c: Coin)
    requires WellShaped(s) && n <= |selected|
    requires forall k | 0 <= k < n :: selected[k] in s.at
    ensures c in Candidates(s, selected, threshold, n) <==>
      c in selected[..n] || exists k | 0 <= k < n :: c in s.at[selected[k]].at && s.at[selected[k]].at[c] < threshold
  {
    if n > 0 {
      var base := selected[n - 1];
      var row := s.at[base];
      var rest := BelowThreshold(row, threshold, |row.keys|);
      assert c in rest <==> c in row.at && row.at[c] < threshold by {
        BelowThresholdMembership(row, threshold, |row.keys|, c);
        assert row.keys[..|row.keys|] == row.keys;
      }
      assert selected[..n] == selected[..n - 1] + [base];
      assert Candidates(s, selected, threshold, n) == Candidates(s, selected, threshold, n - 1) + [base] + rest;
      CandidatesMembership(s, selected, threshold, n - 1, c);
    }
  }

  /** Absorbing a row into a first-occurrence deduplication deduplicates the
      extended candidate list. */
  lemma {:induction false} AbsorbRowIsDedup(c: seq<Coin>, row: Dict<real>, threshold: real, n: nat)
    requires row.Valid() && n <= |row.keys|
    ensures AbsorbRow(Dedup(c), row, threshold, n) == Dedup(c + BelowThreshold(row, threshold, n))
  {
    if n == 0 {
      assert c + BelowThreshold(row, threshold, n) == c;
    } else {
      var k := row.keys[n - 1];
      var prev := AbsorbRow(Dedup(c), row, threshold, n - 1);
      var before := c + BelowThreshold(row, threshold, n - 1);
      assert prev == Dedup(before) by {
        AbsorbRowIsDedup(c, row, threshold, n - 1);
      }
      if row.at[k] < threshold {
        assert c + BelowThreshold(row, threshold, n) == before + [k] by {
          assert BelowThreshold(row, threshold, n) == BelowThreshold(row, threshold, n - 1) + [k];
        }
        assert AbsorbRow(Dedup(c), row, threshold, n) == Dedup(before + [k]) by {
          DedupAppend(before, k);
        }
      } else {
        assert c + BelowThreshold(row, threshold, n) == before by {
          assert BelowThreshold(row, threshold, n) == BelowThreshold(row, threshold, n - 1);
        }
      }
    }
  }

  /** The plotted list is the first-occurrence deduplication of the candidates. */
  lemma {:induction false} ChartSeriesIsDedup(s: Dict<Dict<real>>, selected: seq<Coin>, threshold: real, n: nat)
    requires WellShaped(s) && n <= |selected|
    requires forall k | 0 <= k < n :: selected[k] in s.at
    ensures ChartSeriesUpTo(s, selected, threshold, n) == Success(Dedup(Candidates(s, selected, threshold, n)))
  {
    if n > 0 {
      var base := selected[n - 1];
      var row := s.at[base];
      var before := Candidates(s, selected, threshold, n - 1);
      var rest := BelowThreshold(row, threshold, |row.keys|);
      assert ChartSeriesUpTo(s, selected, threshold, n - 1) == Success(Dedup(before)) by {
        ChartSeriesIsDedup(s, selected, threshold, n - 1);
      }
      var withBase := if base in Dedup(before) then Dedup(before) else Dedup(before) + [base];
      assert withBase == Dedup(before + [base]) by {
        DedupAppend(before, base);
      }
      assert AbsorbRow(withBase, row, threshold, |row.keys|) == Dedup(before + [base] + rest) by {
        AbsorbRowIsDedup(before + [base], row, threshold, |row.keys|);
      }
      assert Candidates(s, selected, threshold, n) == before + [base] + rest;
    }
  }

  /** The lookup fails exactly when a selected base coin has no entry, and it
      fails on the first such coin. */
  lemma {:induction false} ChartSeriesUpToFailure(s: Dict<Dict<real>>, selected: seq<Coin>, threshold: real, n: nat)
    requires WellShaped(s) && n <= |selected|
    ensures ChartSeriesUpTo(s, selected, threshold, n).Failure? <==> exists k | 0 <= k < n :: selected[k] !in s.at
    ensures ChartSeriesUpTo(s, selected, threshold, n).Failure? ==>
      exists k | 0 <= k < n ::
        && selected[k] == ChartSeriesUpTo(s, selected, threshold, n).error
        && selected[k] !in s.at
        && forall k' | 0 <= k' < k :: selected[k'] in s.at
  {
    if n > 0 {
      ChartSeriesUpToFailure(s, selected, threshold, n - 1);
    }
  }

  /** Once the lookup has failed, later base coins do not change the result. */
  lemma {:induction false} FailurePersists(s: Dict<Dict<real>>, selected: seq<Coin>, threshold: real, k: nat, n: nat)
    requires WellShaped(s) && k <= n <= |selected|
    requires ChartSeriesUpTo(s, selected, threshold, k).Failure?
    ensures ChartSeriesUpTo(s, selected, threshold, n) == ChartSeriesUpTo(s, selected, threshold, k)
    decreases n - k
  {
    if k < n {
      FailurePersists(s, selected, threshold, k + 1, n);
    }
  }

  /** visualize_line_chart plots every selected base coin and every coin
      below the threshold in a selected base coin's entry, each once; with a
      selection taken from the structure's own keys the lookup never fails. */
  lemma ChartSeriesContents(s: Dict<Dict<real>>, selected: seq<Coin>, threshold: real)
    requires WellShaped(s)
    ensures (forall b | b in selected :: b in s.at) <==> ChartSeries(s, selected, threshold).Success?
    ensures ChartSeries(s, selected, threshold).Success? ==>
      var y := ChartSeries(s, selected, threshold).value;
      && Distinct(y)
      && forall c :: c in y <==>
        c in selected || exists k | 0 <= k < |selected| :: c in s.at[selected[k]].at && s.at[selected[k]].at[c] < threshold
  {
    ChartSeriesUpToFailure(s, selected, threshold, |selected|);
    if forall b | b in selected :: b in s.at {
      ChartSeriesIsDedup(s, selected, threshold, |selected|);
      assert selected[..|selected|] == selected;
      forall c
        ensures c in Candidates(s, selected, threshold, |selected|) <==>
          c in selected || exists k | 0 <= k < |selected| :: c in s.at[selected[k]].at && s.at[selected[k]].at[c] < threshold
      {
        CandidatesMembership(s, selected, threshold, |selected|, c);
      }
    }
  }

  /** The inner loop of visualize_line_chart for one base coin's entry. */
  method AbsorbBelowThreshold(y: seq<Coin>, row: Dict<real>, threshold: real) returns (r: seq<Coin>)
    requires row.Valid()
    ensures r == AbsorbRow(y, row, threshold, |row.keys|)
  {
    r := y;
    var j := 0;
    while j < |row.keys|
      invariant 0 <= j <= |row.keys|
      invariant r == AbsorbRow(y, row, threshold, j)
    {
      var coin := row.keys[j];
      if coin !in r && row.at[coin] < threshold {
        r := r + [coin];
      }
      j := j + 1;
    }
  }

  /** The outer loop of visualize_line_chart; a selected base coin without an
      entry ends it with a KeyError. */
  method LineChartSeries(s: Dict<Dict<real>>, selected: seq<Coin>, threshold: real) returns (r: Result<seq<Coin>, Coin>)
    requires WellShaped(s)
    ensures r == ChartSeries(s, selected, threshold)
  {
    var y: seq<Coin> := [];
    var i := 0;
    while i < |selected|
      invariant 0 <= i <= |selected|
      invariant ChartSeriesUpTo(s, selected, threshold, i) == Success(y)
    {
      var base := selected[i];
      if base !in y {
        y := y + [base];
      }
      if base !in s.at {
        assert ChartSeriesUpTo(s, selected, threshold, i + 1) == Failure(base);
        FailurePersists(s, selected, threshold, i + 1, |selected|);
        return Failure(base);
      }
      y := AbsorbBelowThreshold(y, s.at[base], threshold);
      i := i + 1;
    }
    return Success(y);
  }
}

=== FILE: profit_loss.dfy ===
/** describe_profit_loss (and its copy in the basic metrics file): optional
    outlier removal, removal of exact-zero returns, then a description of the
    absolute values of the profitable and of the losing returns. The standard
    deviation and the quartiles of pandas' `describe` are not part of this
    model; count, mean, min and max are. */
module ProfitLoss {
  import opened Wrappers
  import opened Seqs

  /** Returns beyond +-500% count as outliers; the bounds themselves are kept
      (pandas `between` is inclusive). */
  const OutlierBound: real := 5.0

  predicate WithinOutlierBounds(r: real)
  {
    -OutlierBound <= r <= OutlierBound
  }

  predicate NonZero(r: real)
  {
    r != 0.0
  }

  /** The groupby key: `return > 0`. */
  predicate IsGain(r: real)
  {
    r > 0.0
  }

  predicate NotGain(r: real)
  {
    !(r > 0.0)
  }

  /** The rows that reach the groupby: outliers dropped when asked, then every
      exact zero dropped. */
  function SurvivingReturns(rs: seq<real>, excludeOutliers: bool): (s: seq<real>)
    ensures |s| <= |rs|
    ensures forall x :: x in s <==>
      x in rs && x != 0.0 && (excludeOutliers ==> -OutlierBound <= x <= OutlierBound)
  {
    var bounded := if excludeOutliers then Filter(rs, WithinOutlierBounds) else rs;
    Filter(bounded, NonZero)
  }

  function Abs(xs: seq<real>): seq<real>
  {
    seq(|xs|, i requires 0 <= i < |xs| => if xs[i] < 0.0 then -xs[i] else xs[i])
  }

  /** The part of pandas' `describe` that is exact over the reals. */
  datatype Description = Description(count: nat, mean: real, min: real, max: real)

  function Describe(xs: seq<real>): (d: Description)
    requires |xs| > 0
    ensures d.count == |xs|
    ensures AveragesTo(d.mean, d.count, Sum(xs))
    ensures d.min <= d.mean <= d.max
    ensures d.min in xs && d.max in xs
    ensures forall x :: x in xs ==> d.min <= x <= d.max
  {
    Description(|xs|, Mean(xs), Min(xs), Max(xs))
  }

  /** The result frame: the `Loss` row (groupby key False) comes before the
      `Profit` row (key True); a group without rows has no row. */
  datatype ProfitLossTable = ProfitLossTable(loss: Option<Description>, profit: Option<Description>)

  /** The ValueError of `unstack`: when no return reaches the groupby, `apply`
      finds no group and returns an empty series without a MultiIndex. */
  datatype DescribeError = NothingToUnstack

  function DescribeGroup(group: seq<real>): Option<Description>
  {
    if |group| == 0 then None else Some(Describe(Abs(group)))
  }

  /** describe_profit_loss: fails when no return survives the filters, and
      otherwise has at least one row. */
  function DescribeProfitLoss(rs: seq<real>, excludeOutliers: bool): (r: Result<ProfitLossTable, DescribeError>)
    ensures r.Failure? <==> forall x | x in rs :: x == 0.0 || (excludeOutliers && !WithinOutlierBounds(x))
    ensures r.Success? ==> r.value.loss.Some? || r.value.profit.Some?
  {
    var s := SurvivingReturns(rs, excludeOutliers);
    if |s| == 0 then Failure(NothingToUnstack)
    else
      assert s[0] in s;
      FilterSplit(s, NotGain, IsGain);
      Success(ProfitLossTable(DescribeGroup(Filter(s, NotGain)), DescribeGroup(Filter(s, IsGain))))
  }

  function RowCount(row: Option<Description>): nat
  {
    if row.Some? then row.value.count else 0
  }

  /** An exact zero reaches neither group, whatever the flag: the profit group
      holds only positive and the loss group only negative returns. */
  lemma NoZeroInEitherGroup(rs: seq<real>, excludeOutliers: bool)
    ensures forall x :: x in Filter(SurvivingReturns(rs, excludeOutliers), IsGain) ==> x > 0.0
    ensures forall x :: x in Filter(SurvivingReturns(rs, excludeOutliers), NotGain) ==> x < 0.0
  {
  }

  /** When the table exists, its Profit and Loss counts add up to the number
      of surviving returns, which is positive. */
  lemma GroupCountsAddUp(rs: seq<real>, excludeOutliers: bool)
    ensures var t := DescribeProfitLoss(rs, excludeOutliers);
      t.Success? ==>
        RowCount(t.value.profit) + RowCount(t.value.loss) == |SurvivingReturns(rs, excludeOutliers)| > 0
  {
    FilterSplit(SurvivingReturns(rs, excludeOutliers), IsGain, NotGain);
  }

  lemma AbsOfPositives(xs: seq<real>)
    requires forall x :: x in xs ==> x > 0.0
    ensures Abs(xs) == xs
  {
    assert forall i | 0 <= i < |xs| :: xs[i] in xs;
  }

  lemma AbsOfNegatives(xs: seq<real>)
    requires forall x :: x in xs ==> x < 0.0
    ensures forall y :: y in Abs(xs) <==> -y in xs
  {
    assert forall i | 0 <= i < |xs| :: xs[i] in xs;
    forall y | -y in xs
      ensures y in Abs(xs)
    {
      var i :| 0 <= i < |xs| && xs[i] == -y;
      assert Abs(xs)[i] == y;
    }
  }

  /** The magnitudes of a group of losses add up to the negated total. */
  lemma {:induction false} SumOfMagnitudes(losses: seq<real>)
    requires forall x :: x in losses ==> x < 0.0
    ensures Sum(Abs(losses)) == -Sum(losses)
  {
    if losses != [] {
      var init := losses[..|losses| - 1];
      assert forall x :: x in init ==> x in losses;
      SumOfMagnitudes(init);
      assert Abs(losses)[..|losses| - 1] == Abs(init);
      assert losses[|losses| - 1] in losses;
    }
  }

  /** A group of losses is described through its absolute values: a positive
      minimum, and bounds on the magnitude of every loss. */
  lemma LossGroupBounds(losses: seq<real>)
    requires |losses| > 0
    requires forall x :: x in losses ==> x < 0.0
    ensures 0.0 < Describe(Abs(losses)).min
    ensures -Describe(Abs(losses)).min in losses && -Describe(Abs(losses)).max in losses
    ensures forall x :: x in losses ==> Describe(Abs(losses)).min <= -x <= Describe(Abs(losses)).max
  {
    AbsOfNegatives(losses);
    var row := Describe(Abs(losses));
    assert -row.min in losses && -row.max in losses;
    forall x | x in losses
      ensures row.min <= -x <= row.max
    {
      assert -x in Abs(losses);
    }
  }

  /** The mean of a loss group's description is the average magnitude. */
  lemma LossGroupMean(losses: seq<real>)
    requires |losses| > 0
    requires forall x :: x in losses ==> x < 0.0
    ensures AveragesTo(Describe(Abs(losses)).mean, Describe(Abs(losses)).count, -Sum(losses))
  {
    var d := Describe(Abs(losses));
    assert AveragesTo(d.mean, d.count, Sum(Abs(losses)));
    SumOfMagnitudes(losses);
  }

  /** The Profit row summarises the strictly positive surviving returns: it is
      present exactly when there is one, it counts them, and its min and max
      bound every one of them (their absolute value is themselves). */
  lemma ProfitRowSummarisesGains(rs: seq<real>, excludeOutliers: bool)
    ensures var t := DescribeProfitLoss(rs, excludeOutliers);
      t.Success? ==> (t.value.profit.Some? <==>
        exists x :: x in rs && x > 0.0 && (excludeOutliers ==> x <= OutlierBound))
    ensures var t := DescribeProfitLoss(rs, excludeOutliers);
      t.Success? && t.value.profit.Some? ==>
        var row := t.value.profit;
        && row.value == Describe(Filter(SurvivingReturns(rs, excludeOutliers), IsGain))
        && row.value.count == |Filter(SurvivingReturns(rs, excludeOutliers), IsGain)|
        && 0.0 < row.value.min
        && (forall x :: x in rs && x > 0.0 && (excludeOutliers ==> x <= OutlierBound) ==>
              row.value.min <= x <= row.value.max)
  {
    var s := SurvivingReturns(rs, excludeOutliers);
    var gains := Filter(s, IsGain);
    if exists x :: x in rs && x > 0.0 && (excludeOutliers ==> x <= OutlierBound) {
      var x :| x in rs && x > 0.0 && (excludeOutliers ==> x <= OutlierBound);
      assert x in gains;
    }
    AbsOfPositives(gains);
  }

  /** The Loss row summarises the absolute values of the strictly negative
      surviving returns in the same way. */
  lemma LossRowSummarisesLosses(rs: seq<real>, excludeOutliers: bool)
    ensures var t := DescribeProfitLoss(rs, excludeOutliers);
      t.Success? ==> (t.value.loss.Some? <==>
        exists x :: x in rs && x < 0.0 && (excludeOutliers ==> -OutlierBound <= x))
    ensures var t := DescribeProfitLoss(rs, excludeOutliers);
      t.Success? && t.value.loss.Some? ==>
        var row := t.value.loss;
        && row.value.count == |Filter(SurvivingReturns(rs, excludeOutliers), NotGain)|
        && 0.0 < row.value.min
        && (forall x :: x in rs && x < 0.0 && (excludeOutliers ==> -OutlierBound <= x) ==>
              row.value.min <= -x <= row.value.max)
  {
    var losses := Filter(SurvivingReturns(rs, excludeOutliers), NotGain);
    LossesMembership(rs, excludeOutliers);
    if |losses| > 0 {
      assert losses[0] in losses;
      LossGroupBounds(losses);
    }
  }

  /** The table's rows are the descriptions of the two groups of survivors. */
  lemma TableRows(rs: seq<real>, excludeOutliers: bool)
    ensures var t := DescribeProfitLoss(rs, excludeOutliers);
      t.Success? ==>
        && t.value.loss == DescribeGroup(Filter(SurvivingReturns(rs, excludeOutliers), NotGain))
        && t.value.profit == DescribeGroup(Filter(SurvivingReturns(rs, excludeOutliers), IsGain))
  {
  }

  /** The Loss row's minimum and maximum are magnitudes of actual returns. The
      row is `DescribeGroup` of the loss group (TableRows). */
  lemma LossRowMagnitudes(rs: seq<real>, excludeOutliers: bool)
    ensures var row := DescribeGroup(Filter(SurvivingReturns(rs, excludeOutliers), NotGain));
      row.Some? ==> -row.value.min in rs && -row.value.max in rs
  {
    var losses := Filter(SurvivingReturns(rs, excludeOutliers), NotGain);
    if |losses| > 0 {
      NoZeroInEitherGroup(rs, excludeOutliers);
      LossesAreReturns(rs, excludeOutliers);
      LossGroupMembers(losses, rs);
    }
  }

  /** The Loss row's mean is the average magnitude of the losses: mean times
      count is the negated total of the loss group. */
  lemma LossRowMean(rs: seq<real>, excludeOutliers: bool)
    ensures var row := DescribeGroup(Filter(SurvivingReturns(rs, excludeOutliers), NotGain));
      row.Some? ==>
        AveragesTo(row.value.mean, row.value.count, -Sum(Filter(SurvivingReturns(rs, excludeOutliers), NotGain)))
  {
    var losses := Filter(SurvivingReturns(rs, excludeOutliers), NotGain);
    if |losses| > 0 {
      NoZeroInEitherGroup(rs, excludeOutliers);
      LossGroupMean(losses);
    }
  }

  lemma LossesAreReturns(rs: seq<real>, excludeOutliers: bool)
    ensures forall x :: x in Filter(SurvivingReturns(rs, excludeOutliers), NotGain) ==> x in rs
  {
  }

  /** The extremes of a loss group's magnitudes are negations of its members,
      and so of any sequence holding them. */
  lemma LossGroupMembers(losses: seq<real>, rs: seq<real>)
    requires |losses| > 0
    requires forall x :: x in losses ==> x < 0.0
    requires forall x :: x in losses ==> x in rs
    ensures -Describe(Abs(losses)).min in rs && -Describe(Abs(losses)).max in rs
  {
    LossGroupBounds(losses);
  }

  lemma LossesMembership(rs: seq<real>, excludeOutliers: bool)
    ensures forall x :: x in Filter(SurvivingReturns(rs, excludeOutliers), NotGain) <==>
      x in rs && x < 0.0 && (excludeOutliers ==> -OutlierBound <= x)
  {
  }

  /** A group whose returns all lie within the outlier bounds reports no
      absolute value above them. */
  lemma GroupWithinBounds(group: seq<real>)
    requires |group| > 0
    requires forall x :: x in group ==> -OutlierBound <= x <= OutlierBound
    ensures Describe(Abs(group)).max <= OutlierBound
  {
    var i :| 0 <= i < |group| && Abs(group)[i] == Describe(Abs(group)).max;
    assert group[i] in group;
  }

  /** With outliers excluded, no row reports an absolute return above 500%. */
  lemma OutliersExcluded(rs: seq<real>)
    ensures var t := DescribeProfitLoss(rs, true);
      t.Success? ==>
        && (t.value.profit.Some? ==> t.value.profit.value.max <= OutlierBound)
        && (t.value.loss.Some? ==> t.value.loss.value.max <= OutlierBound)
  {
    var s := SurvivingReturns(rs, true);
    var gains, losses := Filter(s, IsGain), Filter(s, NotGain);
    if |gains| > 0 {
      GroupWithinBounds(gains);
    }
    if |losses| > 0 {
      GroupWithinBounds(losses);
    }
  }
}

=== FILE: return_shares.dfy ===
/** The profit / loss / hodl share classifier (calculate_strategy_share, and its
    copy calculate_strategy_stats in the basic metrics file). */
module ReturnShares {

  datatype Category = Profit | Loss | Hodl

  /** Each return lands in exactly one category, by its sign. */
  function Classify(r: real): (c: Category)
    ensures c == Profit <==> r > 0.0
    ensures c == Loss <==> r < 0.0
    ensures c == Hodl <==> r == 0.0
  {
    if r > 0.0 then Profit else if r < 0.0 then Loss else Hodl
  }

  /** Number of returns classified as `c` (pandas `value_counts`). */
  function CountOf(rs: seq<real>, c: Category): (n: nat)
    ensures n <= |rs|
  {
    if rs == [] then 0
    else CountOf(rs[..|rs| - 1], c) + (if Classify(rs[|rs| - 1]) == c then 1 else 0)
  }

  /** value_counts(normalize=True): the share count / len of every category that
      occurs; categories that do not occur are absent. An empty series gives no
      shares at all. */
  function StrategyShare(rs: seq<real>): (shares: map<Category, real>)
    ensures forall c :: c in shares <==> CountOf(rs, c) > 0
    ensures forall c | c in shares :: 0.0 < shares[c] <= 1.0
    ensures forall c | c in shares :: shares[c] == Share(rs, c)
  {
    map c | c in {Profit, Loss, Hodl} && CountOf(rs, c) > 0 :: Share(rs, c)
  }

  /** The normalised count of one occurring category. */
  function Share(rs: seq<real>, c: Category): (s: real)
    requires CountOf(rs, c) > 0
    ensures 0.0 < s <= 1.0
    ensures s * |rs| as real == CountOf(rs, c) as real
  {
    ShareRange(CountOf(rs, c) as real, |rs| as real);
    CountOf(rs, c) as real / |rs| as real
  }

  lemma ShareRange(k: real, n: real)
    requires 0.0 < k <= n
    ensures 0.0 < k / n <= 1.0 && (k / n) * n == k
  {
  }

  /** The share of `c`, reading an absent category as 0. */
  function ShareOrZero(shares: map<Category, real>, c: Category): real
  {
    if c in shares then shares[c] else 0.0
  }

  /** Every return is counted in exactly one category. */
  lemma {:induction false} CountsPartition(rs: seq<real>)
    ensures CountOf(rs, Profit) + CountOf(rs, Loss) + CountOf(rs, Hodl) == |rs|
  {
    if rs != [] {
      CountsPartition(rs[..|rs| - 1]);
    }
  }

  /** The present shares add up to 1 for a non-empty series. */
  lemma SharesSumToOne(rs: seq<real>)
    requires |rs| > 0
    ensures ShareOrZero(StrategyShare(rs), Profit) + ShareOrZero(StrategyShare(rs), Loss)
            + ShareOrZero(StrategyShare(rs), Hodl) == 1.0
  {
    var shares := StrategyShare(rs);
    var n := |rs| as real;
    CountsPartition(rs);
    forall c
      ensures ShareOrZero(shares, c) == CountOf(rs, c) as real / n
    {
    }
    SumOfQuotients(CountOf(rs, Profit) as real, CountOf(rs, Loss) as real, CountOf(rs, Hodl) as real, n);
  }

  lemma SumOfQuotients(a: real, b: real, c: real, n: real)
    requires n > 0.0 && a + b + c == n
    ensures a / n + b / n + c / n == 1.0
  {
  }

  /** Returns 10%, -5%, 0, 20%, -10%: PROFIT 0.4, LOSS 0.4, HODL 0.2. */
  lemma ShareExample()
    ensures StrategyShare([0.1, -0.05, 0.0, 0.2, -0.1]) == map[Profit := 0.4, Loss := 0.4, Hodl := 0.2]
  {
    var rs := [0.1, -0.05, 0.0, 0.2, -0.1];
    assert rs[..1][..0] == [];
    assert rs[..2][..1] == rs[..1];
    assert rs[..3][..2] == rs[..2];
    assert rs[..4][..3] == rs[..3];
    assert rs[..5][..4] == rs[..4];
    assert rs[..5] == rs;
    assert CountOf(rs[..1], Profit) == 1 && CountOf(rs[..1], Loss) == 0 && CountOf(rs[..1], Hodl) == 0;
    assert CountOf(rs[..2], Profit) == 1 && CountOf(rs[..2], Loss) == 1 && CountOf(rs[..2], Hodl) == 0;
    assert CountOf(rs[..3], Profit) == 1 && CountOf(rs[..3], Loss) == 1 && CountOf(rs[..3], Hodl) == 1;
    assert CountOf(rs[..4], Profit) == 2 && CountOf(rs[..4], Loss) == 1 && CountOf(rs[..4], Hodl) == 1;
    assert CountOf(rs, Profit) == 2;
    assert CountOf(rs, Loss) == 2;
    assert CountOf(rs, Hodl) == 1;
  }
}

=== FILE: risk_metrics.dfy ===
/** Risk metrics over a series of period returns (fractions: 0.05 is +5%):
    the maximum drawdown of the compounded wealth index and the longest run of
    losing periods. */
module RiskMetrics {

  /** Every return is above -100%, so every wealth level stays positive. */
  predicate AboveMinusOne(rs: seq<real>)
  {
    forall i | 0 <= i < |rs| :: rs[i] > -1.0
  }

  /** Wealth index at position i: the running product of (1 + r) over the first
      i + 1 returns (pandas `cumprod`), so the index starts at 1 + rs[0]. */
  function Wealth(rs: seq<real>, i: nat): (w: real)
    requires i < |rs| && AboveMinusOne(rs)
    ensures w > 0.0
  {
    if i == 0 then 1.0 + rs[0]
    else
      var previous := Wealth(rs, i - 1);
      PositiveProduct(previous, 1.0 + rs[i]);
      previous * (1.0 + rs[i])
  }

  /** Running peak of the wealth index at position i (pandas `cummax`). */
  function Peak(rs: seq<real>, i: nat): (p: real)
    requires i < |rs| && AboveMinusOne(rs)
    ensures p >= Wealth(rs, i)
  {
    if i == 0 then Wealth(rs, 0)
    else
      var previous := Peak(rs, i - 1);
      var w := Wealth(rs, i);
      if w > previous then w else previous
  }

  /** Relative distance of the wealth index from its running peak at position i. */
  function DrawdownAt(rs: seq<real>, i: nat): (d: real)
    requires i < |rs| && AboveMinusOne(rs)
    ensures -1.0 < d <= 0.0
  {
    var w, p := Wealth(rs, i), Peak(rs, i);
    DrawdownRange(w, p);
    (w - p) / p
  }

  /** The smallest drawdown among positions 0..n. */
  function LowestDrawdown(rs: seq<real>, n: nat): (d: real)
    requires n < |rs| && AboveMinusOne(rs)
    ensures forall i | 0 <= i <= n :: d <= DrawdownAt(rs, i)
    ensures exists i | 0 <= i <= n :: d == DrawdownAt(rs, i)
  {
    if n == 0 then DrawdownAt(rs, 0)
    else
      var previous := LowestDrawdown(rs, n - 1);
      var d := DrawdownAt(rs, n);
      if d < previous then d else previous
  }

  /** calculate_max_drawdown: the minimum (most negative) drawdown of the series. */
  function MaxDrawdown(rs: seq<real>): (d: real)
    requires |rs| > 0 && AboveMinusOne(rs)
    ensures -1.0 < d <= 0.0
    ensures forall i | 0 <= i < |rs| :: d <= DrawdownAt(rs, i)
    ensures exists i | 0 <= i < |rs| :: d == DrawdownAt(rs, i)
  {
    LowestDrawdown(rs, |rs| - 1)
  }

  lemma PositiveProduct(a: real, b: real)
    requires a > 0.0 && b > 0.0
    ensures a * b > 0.0
  {
  }

  lemma DrawdownRange(w: real, p: real)
    requires 0.0 < w <= p
    ensures -1.0 < (w - p) / p <= 0.0
  {
    var d := (w - p) / p;
    assert d * p == w - p;
  }

  lemma DrawdownZero(w: real, p: real)
    requires 0.0 < p
    ensures (w - p) / p == 0.0 <==> w == p
  {
    if (w - p) / p == 0.0 {
      assert w - p == ((w - p) / p) * p;
    }
  }

  lemma GrowthAtLeast(a: real, f: real)
    requires a > 0.0 && f >= 1.0
    ensures a * f >= a
  {
    assert a * f - a == a * (f - 1.0);
  }

  /** The running peak dominates every earlier wealth level and is one of them. */
  lemma {:induction false} PeakIsRunningMaximum(rs: seq<real>, i: nat)
    requires i < |rs| && AboveMinusOne(rs)
    ensures forall j | 0 <= j <= i :: Wealth(rs, j) <= Peak(rs, i)
    ensures exists j | 0 <= j <= i :: Peak(rs, i) == Wealth(rs, j)
  {
    if i > 0 {
      PeakIsRunningMaximum(rs, i - 1);
      if Wealth(rs, i) <= Peak(rs, i - 1) {
        var j :| 0 <= j <= i - 1 && Peak(rs, i - 1) == Wealth(rs, j);
        assert Peak(rs, i) == Wealth(rs, j);
      } else {
        assert Peak(rs, i) == Wealth(rs, i);
      }
    } else {
      assert Peak(rs, 0) == Wealth(rs, 0);
    }
  }

  /** The running peak never decreases. */
  lemma {:induction false} PeakNonDecreasing(rs: seq<real>, i: nat, j: nat)
    requires i <= j < |rs| && AboveMinusOne(rs)
    ensures Peak(rs, i) <= Peak(rs, j)
  {
    if i < j {
      PeakNonDecreasing(rs, i, j - 1);
    }
  }

  /** The wealth index never falls below an earlier level. */
  ghost predicate WealthNonDecreasing(rs: seq<real>)
    requires AboveMinusOne(rs)
  {
    forall i, j | 0 <= i <= j < |rs| :: Wealth(rs, i) <= Wealth(rs, j)
  }

  /** The maximum drawdown is 0 exactly when the wealth index never drops below
      an earlier peak. */
  lemma MaxDrawdownZeroIff(rs: seq<real>)
    requires |rs| > 0 && AboveMinusOne(rs)
    ensures MaxDrawdown(rs) == 0.0 <==> WealthNonDecreasing(rs)
  {
    if WealthNonDecreasing(rs) {
      NonDecreasingWealthNoDrawdown(rs);
    }
    if MaxDrawdown(rs) == 0.0 {
      NoDrawdownNonDecreasingWealth(rs);
    }
  }

  lemma NonDecreasingWealthNoDrawdown(rs: seq<real>)
    requires |rs| > 0 && AboveMinusOne(rs) && WealthNonDecreasing(rs)
    ensures MaxDrawdown(rs) == 0.0
  {
    var k :| 0 <= k < |rs| && MaxDrawdown(rs) == DrawdownAt(rs, k);
    PeakIsRunningMaximum(rs, k);
    var j :| 0 <= j <= k && Peak(rs, k) == Wealth(rs, j);
    assert Wealth(rs, j) <= Wealth(rs, k);
    DrawdownZero(Wealth(rs, k), Peak(rs, k));
  }

  lemma NoDrawdownNonDecreasingWealth(rs: seq<real>)
    requires |rs| > 0 && AboveMinusOne(rs) && MaxDrawdown(rs) == 0.0
    ensures WealthNonDecreasing(rs)
  {
    forall i, j | 0 <= i <= j < |rs|
      ensures Wealth(rs, i) <= Wealth(rs, j)
    {
      assert DrawdownAt(rs, j) == 0.0;
      DrawdownZero(Wealth(rs, j), Peak(rs, j));
      PeakIsRunningMaximum(rs, j);
    }
  }

  /** A series without a negative return has no drawdown. */
  lemma NoLossNoDrawdown(rs: seq<real>)
    requires |rs| > 0 && AboveMinusOne(rs)
    requires forall i | 0 <= i < |rs| :: rs[i] >= 0.0
    ensures MaxDrawdown(rs) == 0.0
  {
    forall i, j | 0 <= i <= j < |rs|
      ensures Wealth(rs, i) <= Wealth(rs, j)
    {
      WealthGrows(rs, i, j);
    }
    MaxDrawdownZeroIff(rs);
  }

  lemma {:induction false} WealthGrows(rs: seq<real>, i: nat, j: nat)
    requires i <= j < |rs| && AboveMinusOne(rs)
    requires forall k | 0 <= k < |rs| :: rs[k] >= 0.0
    ensures Wealth(rs, i) <= Wealth(rs, j)
  {
    if i < j {
      WealthGrows(rs, i, j - 1);
      GrowthAtLeast(Wealth(rs, j - 1), 1.0 + rs[j]);
    }
  }

  /** The wealth index starts at the first period's own growth, so a single
      period is never a drawdown, whatever its sign. */
  lemma SinglePeriodNoDrawdown(r: real)
    requires r > -1.0
    ensures MaxDrawdown([r]) == 0.0
  {
    DrawdownZero(Wealth([r], 0), Peak([r], 0));
  }

  /** Returns 10%, -20%, 10%: wealth 1.1, 0.88, 0.968 under a peak of 1.1. */
  lemma MaxDrawdownExample()
    ensures MaxDrawdown([0.1, -0.2, 0.1]) == -0.2
  {
    var rs := [0.1, -0.2, 0.1];
    assert Wealth(rs, 1) == 0.88;
    assert Wealth(rs, 2) == 0.968;
    assert Peak(rs, 2) == 1.1;
    assert DrawdownAt(rs, 0) == 0.0;
    assert DrawdownAt(rs, 1) == -0.2;
    assert DrawdownAt(rs, 2) == -0.12;
  }

  // ---- Loss duration ----

  /** Length of the run of strictly negative returns that ends at position i
      (0 when rs[i] is not a loss): the value of the groupby-cumsum of the
      loss indicator. */
  function LossRunEndingAt(rs: seq<real>, i: nat): (n: nat)
    requires i < |rs|
    ensures n <= i + 1
  {
    if rs[i] >= 0.0 then 0
    else if i == 0 then 1
    else LossRunEndingAt(rs, i - 1) + 1
  }

  /** The largest LossRunEndingAt among positions 0..n. */
  function LongestLossRunUpTo(rs: seq<real>, n: nat): (d: nat)
    requires n < |rs|
    ensures d <= n + 1
    ensures forall i | 0 <= i <= n :: LossRunEndingAt(rs, i) <= d
    ensures exists i | 0 <= i <= n :: d == LossRunEndingAt(rs, i)
  {
    if n == 0 then LossRunEndingAt(rs, 0)
    else
      var previous := LongestLossRunUpTo(rs, n - 1);
      var here := LossRunEndingAt(rs, n);
      if here > previous then here else previous
  }

  /** calculate_duration_of_losses: the maximum of the per-period loss-run lengths. */
  function DurationOfLosses(rs: seq<real>): (d: nat)
    requires |rs| > 0
    ensures d <= |rs|
  {
    LongestLossRunUpTo(rs, |rs| - 1)
  }

  /** The `len` returns from position `start` on are all strictly negative. */
  ghost predicate LossRun(rs: seq<real>, start: nat, len: nat)
  {
    start + len <= |rs| && forall j | start <= j < start + len :: rs[j] < 0.0
  }

  lemma {:induction false} RunEndingAtIsRun(rs: seq<real>, i: nat)
    requires i < |rs|
    ensures LossRun(rs, i + 1 - LossRunEndingAt(rs, i), LossRunEndingAt(rs, i))
  {
    if rs[i] < 0.0 && i > 0 {
      RunEndingAtIsRun(rs, i - 1);
    }
  }

  lemma {:induction false} RunWithinRunEndingAt(rs: seq<real>, start: nat, len: nat)
    requires LossRun(rs, start, len) && len > 0
    ensures len <= LossRunEndingAt(rs, start + len - 1)
  {
    if len > 1 {
      RunWithinRunEndingAt(rs, start, len - 1);
    }
  }

  /** The duration is the length of the longest run of consecutive losses: such
      a run exists and no run is longer. */
  lemma DurationIsLongestRun(rs: seq<real>)
    requires |rs| > 0
    ensures exists start: nat :: LossRun(rs, start, DurationOfLosses(rs))
    ensures forall start: nat, len: nat :: LossRun(rs, start, len) ==> len <= DurationOfLosses(rs)
  {
    var d := DurationOfLosses(rs);
    var i :| 0 <= i < |rs| && d == LossRunEndingAt(rs, i);
    RunEndingAtIsRun(rs, i);
    forall start: nat, len: nat | LossRun(rs, start, len)
      ensures len <= d
    {
      if len > 0 {
        RunWithinRunEndingAt(rs, start, len);
      }
    }
  }

  /** The duration is 0 exactly when no return is negative. */
  lemma DurationZeroIff(rs: seq<real>)
    requires |rs| > 0
    ensures DurationOfLosses(rs) == 0 <==> forall i | 0 <= i < |rs| :: rs[i] >= 0.0
  {
    DurationIsLongestRun(rs);
    if exists i | 0 <= i < |rs| :: rs[i] < 0.0 {
      var i :| 0 <= i < |rs| && rs[i] < 0.0;
      assert LossRun(rs, i, 1);
    }
  }

  /** Returns -10%, -10%, +10%, -10% have a longest losing streak of 2. */
  lemma DurationExample()
    ensures DurationOfLosses([-0.1, -0.1, 0.1, -0.1]) == 2
  {
    var rs := [-0.1, -0.1, 0.1, -0.1];
    assert LossRunEndingAt(rs, 1) == 2;
    assert LossRunEndingAt(rs, 3) == 1;
  }
}

=== FILE: row_dedup.dfy ===
/** drop_duplicates: mark every row whose key-column value already occurred
    in an earlier row, then drop the marked rows by index label. */
module RowDedup {
  import opened Wrappers
  import opened Seqs

  /** A spreadsheet cell; NaN and missing cells are `Blank`. */
  datatype Cell = Text(text: string) | Number(number: real) | Blank

  /** A table row with its index label. */
  datatype Row = Row(indexLabel: int, cells: map<string, Cell>)

  datatype Table = Table(columns: set<string>, rows: seq<Row>)
  {
    /** Every row has a cell in every column and in no other. */
    predicate WellFormed()
    {
      forall k | 0 <= k < |rows| :: rows[k].cells.Keys == columns
    }
  }

  predicate HasColumn(rows: seq<Row>, column: string)
  {
    forall k | 0 <= k < |rows| :: column in rows[k].cells
  }

  /** The key column, top to bottom. */
  function Values(rows: seq<Row>, column: string): (vs: seq<Cell>)
    requires HasColumn(rows, column)
    ensures |vs| == |rows|
    ensures forall k | 0 <= k < |rows| :: vs[k] == rows[k].cells[column]
  {
    seq(|rows|, k requires 0 <= k < |rows| => rows[k].cells[column])
  }

  function Labels(rows: seq<Row>): seq<int>
  {
    seq(|rows|, k requires 0 <= k < |rows| => rows[k].indexLabel)
  }

  /** `data.duplicated(column)` at row k: an earlier row has the same value. */
  predicate IsDuplicated(rows: seq<Row>, column: string, k: nat)
    requires HasColumn(rows, column) && k < |rows|
    ensures IsDuplicated(rows, column, k) <==> exists j | 0 <= j < k :: rows[j].cells[column] == rows[k].cells[column]
  {
    rows[k].cells[column] in Values(rows[..k], column)
  }

  /** `data[data.duplicated(column)].index`. */
  function DuplicateLabels(rows: seq<Row>, column: string): (labels: set<int>)
    requires HasColumn(rows, column)
    ensures forall l | l in labels :: l in Labels(rows)
  {
    assert forall k | 0 <= k < |rows| :: Labels(rows)[k] == rows[k].indexLabel;
    set k | 0 <= k < |rows| && IsDuplicated(rows, column, k) :: rows[k].indexLabel
  }

  /** `data.drop(labels)`: every row whose label is listed goes, order kept. */
  function WithoutLabels(rows: seq<Row>, labels: set<int>): (r: seq<Row>)
    ensures |r| <= |rows|
    ensures forall x :: x in r <==> x in rows && x.indexLabel !in labels
  {
    if rows == [] then []
    else
      var init, last := rows[..|rows| - 1], rows[|rows| - 1];
      assert rows == init + [last];
      WithoutLabels(init, labels) + (if last.indexLabel in labels then [] else [last])
  }

  /** drop_duplicates; a key column the table does not have raises KeyError. */
  function DropDuplicates(t: Table, column: string): (r: Result<Table, string>)
    requires t.WellFormed()
    ensures r.Failure? <==> column !in t.columns
    ensures r.Failure? ==> r.error == column
    ensures r.Success? ==>
      && r.value.columns == t.columns
      && |r.value.rows| <= |t.rows|
      && forall x | x in r.value.rows :: x in t.rows
  {
    if column !in t.columns then Failure(column)
    else Success(Table(t.columns, WithoutLabels(t.rows, DuplicateLabels(t.rows, column))))
  }

  /** The reference: keep the first row of every key value, in order. */
  function KeepFirst(rows: seq<Row>, column: string): (r: seq<Row>)
    requires HasColumn(rows, column)
    ensures forall x | x in r :: x in rows
  {
    if rows == [] then []
    else
      var init, last := rows[..|rows| - 1], rows[|rows| - 1];
      assert rows == init + [last];
      KeepFirst(init, column) + (if last.cells[column] in Values(init, column) then [] else [last])
  }

  lemma HasColumnPrefix(rows: seq<Row>, column: string, n: nat)
    requires HasColumn(rows, column) && n <= |rows|
    ensures HasColumn(rows[..n], column)
  {
  }

  /** With unique labels a label is dropped exactly when its row repeats an
      earlier key value. */
  lemma DroppedIffDuplicated(rows: seq<Row>, column: string, k: nat)
    requires HasColumn(rows, column) && Distinct(Labels(rows)) && k < |rows|
    ensures rows[k].indexLabel in DuplicateLabels(rows, column) <==> IsDuplicated(rows, column, k)
  {
    if rows[k].indexLabel in DuplicateLabels(rows, column) {
      var j :| 0 <= j < |rows| && IsDuplicated(rows, column, j) && rows[j].indexLabel == rows[k].indexLabel;
      assert Labels(rows)[j] == Labels(rows)[k];
    }
  }

  /** Dropping the duplicate labels from a prefix keeps its first rows. */
  lemma {:induction false} WithoutDuplicatesPrefix(rows: seq<Row>, column: string, n: nat)
    requires HasColumn(rows, column) && Distinct(Labels(rows)) && n <= |rows|
    ensures HasColumn(rows[..n], column)
    ensures WithoutLabels(rows[..n], DuplicateLabels(rows, column)) == KeepFirst(rows[..n], column)
  {
    HasColumnPrefix(rows, column, n);
    if n > 0 {
      var dups := DuplicateLabels(rows, column);
      var prefix := rows[..n];
      var last := rows[n - 1];
      assert prefix[..n - 1] == rows[..n - 1];
      assert WithoutLabels(rows[..n - 1], dups) == KeepFirst(rows[..n - 1], column) by {
        WithoutDuplicatesPrefix(rows, column, n - 1);
      }
      assert last.indexLabel in dups <==> last.cells[column] in Values(rows[..n - 1], column) by {
        DroppedIffDuplicated(rows, column, n - 1);
      }
      assert WithoutLabels(prefix, dups)
        == WithoutLabels(rows[..n - 1], dups) + (if last.indexLabel in dups then [] else [last]);
      assert KeepFirst(prefix, column)
        == KeepFirst(rows[..n - 1], column) + (if last.cells[column] in Values(rows[..n - 1], column) then [] else [last]);
    }
  }

  /** drop_duplicates on a table with a unique index keeps exactly the first
      row of every key value, in the original order. */
  lemma DropDuplicatesKeepsFirst(t: Table, column: string)
    requires t.WellFormed() && column in t.columns && Distinct(Labels(t.rows))
    ensures HasColumn(t.rows, column)
    ensures DropDuplicates(t, column) == Success(Table(t.columns, KeepFirst(t.rows, column)))
  {
    WithoutDuplicatesPrefix(t.rows, column, |t.rows|);
    assert t.rows[..|t.rows|] == t.rows;
  }

  /** The kept key values are the first-occurrence deduplication of the column:
      distinct, and every value of the input still present. */
  lemma {:induction false} KeepFirstValues(rows: seq<Row>, column: string)
    requires HasColumn(rows, column)
    ensures HasColumn(KeepFirst(rows, column), column)
    ensures Values(KeepFirst(rows, column), column) == Dedup(Values(rows, column))
  {
    if rows != [] {
      var init, last := rows[..|rows| - 1], rows[|rows| - 1];
      KeepFirstValues(init, column);
      assert Values(rows, column) == Values(init, column) + [last.cells[column]];
      DedupAppend(Values(init, column), last.cells[column]);
      var kept := KeepFirst(init, column);
      if last.cells[column] !in Values(init, column) {
        assert Values(kept + [last], column) == Values(kept, column) + [last.cells[column]];
      }
    }
  }

  /** KeepFirst keeps a subsequence, so unique labels stay unique. */
  lemma {:induction false} KeepFirstLabels(rows: seq<Row>, column: string)
    requires HasColumn(rows, column) && Distinct(Labels(rows))
    ensures Distinct(Labels(KeepFirst(rows, column)))
  {
    if rows != [] {
      var init, last := rows[..|rows| - 1], rows[|rows| - 1];
      assert Labels(init) == Labels(rows)[..|rows| - 1];
      KeepFirstLabels(init, column);
      var kept := KeepFirst(init, column);
      if last.cells[column] !in Values(init, column) {
        forall k | 0 <= k < |kept|
          ensures kept[k].indexLabel != last.indexLabel
        {
          assert kept[k] in init;
          var j :| 0 <= j < |init| && init[j] == kept[k];
          assert Labels(rows)[j] != Labels(rows)[|rows| - 1];
        }
        assert last.indexLabel !in Labels(kept);
        assert KeepFirst(rows, column) == kept + [last];
        assert Labels(kept + [last]) == Labels(kept) + [last.indexLabel];
      } else {
        assert KeepFirst(rows, column) == kept;
      }
    }
  }

  /** Rows whose key values are already distinct all stay. */
  lemma {:induction false} KeepFirstOfDistinct(rows: seq<Row>, column: string)
    requires HasColumn(rows, column) && Distinct(Values(rows, column))
    ensures KeepFirst(rows, column) == rows
  {
    if rows != [] {
      var init, last := rows[..|rows| - 1], rows[|rows| - 1];
      assert Values(init, column) == Values(rows, column)[..|rows| - 1];
      KeepFirstOfDistinct(init, column);
      assert rows == init + [last];
    }
  }

  /** On a table with a unique index, the result's key values are distinct and
      are exactly the input's, and a second application changes nothing. */
  lemma DropDuplicatesContents(t: Table, column: string)
    requires t.WellFormed() && column in t.columns && Distinct(Labels(t.rows))
    ensures DropDuplicates(t, column).Success?
    ensures var r := DropDuplicates(t, column).value;
      && r.WellFormed()
      && HasColumn(r.rows, column)
      && Distinct(Values(r.rows, column))
      && (forall v :: v in Values(r.rows, column) <==> v in Values(t.rows, column))
      && (forall x | x in r.rows :: x in t.rows)
      && Distinct(Labels(r.rows))
      && DropDuplicates(r, column) == Success(r)
  {
    DropDuplicatesKeepsFirst(t, column);
    var kept := KeepFirst(t.rows, column);
    KeepFirstValues(t.rows, column);
    KeepFirstLabels(t.rows, column);
    var r := Table(t.columns, kept);
    assert r.WellFormed() by {
      forall k | 0 <= k < |kept|
        ensures kept[k].cells.Keys == t.columns
      {
        assert kept[k] in t.rows;
      }
    }
    DropDuplicatesKeepsFirst(r, column);
    KeepFirstOfDistinct(kept, column);
  }

  /** With a repeated index label, dropping by label also removes the first
      occurrence: both rows go although the reference keeps one. */
  lemma SharedLabelDropsFirstOccurrence()
    ensures var row := Row(0, map["datetime" := Text("2024-01-01")]);
      var t := Table({"datetime"}, [row, row]);
      && t.WellFormed()
      && DropDuplicates(t, "datetime") == Success(Table({"datetime"}, []))
      && KeepFirst(t.rows, "datetime") == [row]
  {
    var row := Row(0, map["datetime" := Text("2024-01-01")]);
    var rows := [row, row];
    assert rows[..1] == [row];
    assert Values(rows[..1], "datetime") == [row.cells["datetime"]];
    assert IsDuplicated(rows, "datetime", 1);
    assert DuplicateLabels(rows, "datetime") == {0};
    assert [row][..0] == [];
    assert WithoutLabels([row], {0}) == [];
    assert WithoutLabels(rows, {0}) == [];
    assert KeepFirst([row], "datetime") == [row];
  }

  /** After show_corr_data drops repeated timestamps, every remaining row has
      its own timestamp, so percent change and correlation run over one row per
      instant. */
  lemma CleanedTimestampsDistinct(t: Table)
    requires t.WellFormed() && "datetime" in t.columns && Distinct(Labels(t.rows))
    ensures DropDuplicates(t, "datetime").Success?
    ensures var r := DropDuplicates(t, "datetime").value;
      forall a, b | 0 <= a < b < |r.rows| :: r.rows[a].cells["datetime"] != r.rows[b].cells["datetime"]
  {
    DropDuplicatesContents(t, "datetime");
    var r := DropDuplicates(t, "datetime").value;
    forall a, b | 0 <= a < b < |r.rows|
      ensures r.rows[a].cells["datetime"] != r.rows[b].cells["datetime"]
    {
      assert Values(r.rows, "datetime")[a] != Values(r.rows, "datetime")[b];
    }
  }
}

=== FILE: seqs.dfy ===
/** Sequence helpers shared by the statistics and the correlation code:
    order-preserving filtering, first-occurrence deduplication, sum, minimum
    and maximum. */
module Seqs {

  /** No element occurs twice. */
  predicate Distinct<T(==)>(s: seq<T>)
  {
    forall i, j | 0 <= i < j < |s| :: s[i] != s[j]
  }

  /** The elements of `s` that satisfy `p`, in their original order (a boolean mask). */
  function Filter<T(!new)>(s: seq<T>, p: T -> bool): (r: seq<T>)
    ensures |r| <= |s|
    ensures forall x :: x in r <==> x in s && p(x)
  {
    if s == [] then []
    else
      assert s == s[..|s| - 1] + [s[|s| - 1]];
      Filter(s[..|s| - 1], p) + (if p(s[|s| - 1]) then [s[|s| - 1]] else [])
  }

  lemma FilterAppend<T(!new)>(s: seq<T>, x: T, p: T -> bool)
    ensures Filter(s + [x], p) == Filter(s, p) + (if p(x) then [x] else [])
  {
    assert (s + [x])[..|s|] == s;
  }

  /** Two predicates that never hold together pick at most |s| elements between
      them, and exactly |s| when every element satisfies one of them. */
  lemma {:induction false} FilterSplit<T(!new)>(s: seq<T>, p: T -> bool, q: T -> bool)
    requires forall x :: !(p(x) && q(x))
    ensures |Filter(s, p)| + |Filter(s, q)| <= |s|
    ensures (forall x :: x in s ==> p(x) || q(x)) ==> |Filter(s, p)| + |Filter(s, q)| == |s|
  {
    if s != [] {
      var init, last := s[..|s| - 1], s[|s| - 1];
      assert s == init + [last];
      FilterSplit(init, p, q);
      FilterAppend(init, last, p);
      FilterAppend(init, last, q);
    }
  }

  /** Keeps the first occurrence of every element, in first-appearance order. */
  function Dedup<T(==,!new)>(s: seq<T>): (r: seq<T>)
    ensures Distinct(r)
    ensures forall x :: x in r <==> x in s
  {
    if s == [] then []
    else
      var init, last := s[..|s| - 1], s[|s| - 1];
      assert s == init + [last];
      var d := Dedup(init);
      if last in d then d else d + [last]
  }

  lemma DedupAppend<T(!new)>(s: seq<T>, x: T)
    ensures Dedup(s + [x]) == if x in Dedup(s) then Dedup(s) else Dedup(s) + [x]
  {
    assert (s + [x])[..|s|] == s;
  }

  /** A sequence without repetitions is its own deduplication. */
  lemma {:induction false} DedupOfDistinct<T(!new)>(s: seq<T>)
    requires Distinct(s)
    ensures Dedup(s) == s
  {
    if s != [] {
      var init, last := s[..|s| - 1], s[|s| - 1];
      assert s == init + [last];
      assert Distinct(init);
      DedupOfDistinct(init);
      assert last !in init;
    }
  }

  /** The total (pandas `sum`). */
  function Sum(s: seq<real>): real
  {
    if s == [] then 0.0 else Sum(s[..|s| - 1]) + s[|s| - 1]
  }

  /** The smallest element (pandas `min`). */
  function Min(s: seq<real>): (m: real)
    requires |s| > 0
    ensures m in s
    ensures forall x :: x in s ==> m <= x
  {
    if |s| == 1 then s[0]
    else
      var init, last := s[..|s| - 1], s[|s| - 1];
      assert s == init + [last];
      var m := Min(init);
      if last < m then last else m
  }

  /** The largest element (pandas `max`). */
  function Max(s: seq<real>): (m: real)
    requires |s| > 0
    ensures m in s
    ensures forall x :: x in s ==> x <= m
  {
    if |s| == 1 then s[0]
    else
      var init, last := s[..|s| - 1], s[|s| - 1];
      assert s == init + [last];
      var m := Max(init);
      if last > m then last else m
  }

  /** n copies of x added up: n * x, written with additions only so that the
      bounds below stay in linear arithmetic. */
  function Times(n: nat, x: real): real
  {
    if n == 0 then 0.0 else Times(n - 1, x) + x
  }

  lemma {:induction false} TimesMonotone(n: nat, a: real, b: real)
    requires a <= b
    ensures Times(n, a) <= Times(n, b)
  {
    if n > 0 {
      TimesMonotone(n - 1, a, b);
    }
  }

  lemma {:induction false} TimesIsProduct(n: nat, x: real)
    ensures Times(n, x) == n as real * x
  {
    if n > 0 {
      TimesIsProduct(n - 1, x);
      assert n as real * x == (n - 1) as real * x + x;
    }
  }

  /** n * min <= sum <= n * max. */
  lemma {:induction false} SumBounds(s: seq<real>)
    requires |s| > 0
    ensures Times(|s|, Min(s)) <= Sum(s) <= Times(|s|, Max(s))
  {
    if |s| > 1 {
      var init, last := s[..|s| - 1], s[|s| - 1];
      assert s == init + [last];
      SumBounds(init);
      TimesMonotone(|init|, Min(s), Min(init));
      TimesMonotone(|init|, Max(init), Max(s));
    }
  }

  /** `mean` is the average of `count` values adding up to `total`. */
  predicate AveragesTo(mean: real, count: nat, total: real)
  {
    mean * count as real == total
  }

  /** The arithmetic mean (pandas `mean`). */
  function Mean(s: seq<real>): (m: real)
    requires |s| > 0
    ensures AveragesTo(m, |s|, Sum(s))
    ensures Min(s) <= m <= Max(s)
  {
    SumBounds(s);
    QuotientBetween(Sum(s), |s|, Min(s), Max(s));
    QuotientAverages(Sum(s), |s|);
    Sum(s) / |s| as real
  }

  /** A total divided by a positive count averages to that total. */
  lemma QuotientAverages(total: real, count: nat)
    requires count > 0
    ensures AveragesTo(total / count as real, count, total)
  {
  }

  /** A total between count * lo and count * hi has its average between lo and hi. */
  lemma QuotientBetween(total: real, count: nat, lo: real, hi: real)
    requires count > 0 && Times(count, lo) <= total <= Times(count, hi)
    ensures lo <= total / count as real <= hi
  {
    TimesIsProduct(count, lo);
    TimesIsProduct(count, hi);
    DivBetween(total, count as real, lo, hi);
  }

  lemma DivBetween(x: real, n: real, lo: real, hi: real)
    requires n > 0.0
    requires n * lo <= x <= n * hi
    ensures lo <= x / n <= hi
  {
  }
}

=== FILE: strategy_stats.dfy ===
/** The discrete, exact part of calculate_strategy_stats: the latest price, MoM
    and ROI, the yields copy whose last entry is replaced by MoM, the split of
    the yields into profit and loss sides, and the summary record with its
    deliberately crossed `Maximum Loss` / `Minimum Loss` labels. */
module StrategyStats {
  import opened Wrappers
  import opened Seqs
  import ProfitLoss
  import ReturnShares
  import RiskMetrics

  /** One period of a strategy table (one row of the spreadsheet). */
  datatype TradeRow = TradeRow(
    coin: string,
    purchasePrice: real,
    sellPrice: real,
    portfolio: real,
    quantity: real,
    profitLoss: real)

  datatype StatsError =
    | EmptyTable   // `.iloc[-1]` on a table without rows raises IndexError
    | NoPrice      // arithmetic on the `None` price raises TypeError

  /** What the price lookup of the latest coin ends in. */
  datatype PriceLookup =
    | Quoted(price: real)   // the quote service answered
    | ConnectionFailed      // connection error, timeout or redirect loop: printed, then None returned
    | Raised                // any other exception leaves the lookup

  /** The current price as the code computes it: only an exception reaches the
      `Sell price` fallback; a connection failure yields None, and multiplying
      the quantity by None fails. */
  function CurrentPriceAsWritten(lookup: PriceLookup, sellPrice: real): (r: Result<real, StatsError>)
    ensures r.Failure? <==> lookup.ConnectionFailed?
    ensures lookup.Quoted? ==> r == Success(lookup.price)
    ensures lookup.Raised? ==> r == Success(sellPrice)
  {
    match lookup
    case Quoted(p) => Success(p)
    case Raised => Success(sellPrice)
    case ConnectionFailed => Failure(NoPrice)
  }

  /** The current price as the warning-and-fallback code intends it: every
      failed lookup falls back to the latest `Sell price`. */
  function CurrentPrice(lookup: PriceLookup, sellPrice: real): (p: real)
    ensures lookup.Quoted? ==> p == lookup.price
    ensures !lookup.Quoted? ==> p == sellPrice
  {
    if lookup.Quoted? then lookup.price else sellPrice
  }

  /** A connection failure aborts the statistics as written, while the intended
      fallback still produces a price. */
  lemma ConnectionFailureSkipsFallback(sellPrice: real)
    ensures CurrentPriceAsWritten(ConnectionFailed, sellPrice) == Failure(NoPrice)
    ensures CurrentPrice(ConnectionFailed, sellPrice) == sellPrice
  {
  }

  /** The two agree whenever the lookup did not fail on the connection. */
  lemma CurrentPriceAgrees(lookup: PriceLookup, sellPrice: real)
    requires !lookup.ConnectionFailed?
    ensures CurrentPriceAsWritten(lookup, sellPrice) == Success(CurrentPrice(lookup, sellPrice))
  {
  }

  /** Relative change from one amount to another: month-over-month (MoM, from
      the purchase price to the current price) and return on investment (ROI,
      from the opening to the current portfolio balance) are both this. A
      positive base gives a positive change exactly when the amount grew. */
  function RelativeChange(base: real, current: real): (r: real)
    requires base != 0.0
    ensures ChangesBy(base, current, r)
    ensures base > 0.0 ==> (r > 0.0 <==> current > base) && (r == 0.0 <==> current == base)
  {
    (current - base) / base
  }

  /** `r` is the relative change from `base` to `current`. */
  predicate ChangesBy(base: real, current: real, r: real)
  {
    base * (1.0 + r) == current
  }

  function ProfitLossColumn(table: seq<TradeRow>): seq<real>
  {
    seq(|table|, i requires 0 <= i < |table| => table[i].profitLoss)
  }

  /** The yields copy: the `Profit / Loss %` column with its last entry replaced
      by MoM. */
  function Yields(table: seq<TradeRow>, mom: real): (ys: seq<real>)
    requires |table| > 0
    ensures |ys| == |table|
    ensures ys[|table| - 1] == mom
    ensures forall i | 0 <= i < |table| - 1 :: ys[i] == table[i].profitLoss
  {
    ProfitLossColumn(table)[|table| - 1 := mom]
  }

  predicate IsLoss(r: real)
  {
    r < 0.0
  }

  function MinOrNaN(xs: seq<real>): Option<real>
  {
    if |xs| == 0 then None else Some(Min(xs))
  }

  function MaxOrNaN(xs: seq<real>): Option<real>
  {
    if |xs| == 0 then None else Some(Max(xs))
  }

  function MeanOrNaN(xs: seq<real>): Option<real>
  {
    if |xs| == 0 then None else Some(Mean(xs))
  }

  /** The summary record; `None` stands for pandas' NaN. Sharpe, Sortino, the
      medians, the standard deviations and the compound-interest return are not
      part of this model; the side totals are aggregated but never reported. */
  datatype Summary = Summary(
    lifePeriod: nat,
    profitCount: nat,
    lossCount: nat,
    mom: real,
    roi: real,
    meanProfit: Option<real>,
    meanLoss: Option<real>,
    maximumProfit: Option<real>,
    maximumLoss: Option<real>,
    minimumProfit: Option<real>,
    minimumLoss: Option<real>,
    maxDrawdown: Option<real>,
    maxPeriodsInLoss: nat)

  /** The table's opening balance and latest purchase price are usable divisors. */
  predicate Divisible(table: seq<TradeRow>)
  {
    |table| > 0 ==> table[|table| - 1].purchasePrice != 0.0 && table[0].portfolio != 0.0
  }

  /** The record built from the table, the current price and the yields copy:
      Life Period counts the rows, MoM and ROI are the relative changes of the
      price and of the balance, and a side's mean is NaN exactly when the side
      is empty. */
  function Assemble(table: seq<TradeRow>, currentPrice: real, ys: seq<real>): (s: Summary)
    requires |table| > 0 && Divisible(table) && |ys| > 0
    ensures s.lifePeriod == |table|
    ensures ChangesBy(table[|table| - 1].purchasePrice, currentPrice, s.mom)
    ensures ChangesBy(table[0].portfolio, table[|table| - 1].quantity * currentPrice, s.roi)
    ensures (s.profitCount == 0 <==> s.meanProfit.None?) && (s.lossCount == 0 <==> s.meanLoss.None?)
  {
    var last := table[|table| - 1];
    var gains := Filter(ys, ProfitLoss.IsGain);
    var losses := Filter(ys, IsLoss);
    Summary(
      lifePeriod := |table|,
      profitCount := |gains|,
      lossCount := |losses|,
      mom := RelativeChange(last.purchasePrice, currentPrice),
      roi := RelativeChange(table[0].portfolio, last.quantity * currentPrice),
      meanProfit := MeanOrNaN(gains),
      meanLoss := MeanOrNaN(losses),
      maximumProfit := MaxOrNaN(gains),
      maximumLoss := MinOrNaN(losses),   // labelled maximum, computed as the loss-side minimum
      minimumProfit := MinOrNaN(gains),
      minimumLoss := MaxOrNaN(losses),   // labelled minimum, computed as the loss-side maximum
      maxDrawdown := if RiskMetrics.AboveMinusOne(ys) then Some(RiskMetrics.MaxDrawdown(ys)) else None,
      maxPeriodsInLoss := RiskMetrics.DurationOfLosses(ys))
  }

  /** The reported side statistics are those of the yields copy: the counts are
      the classifier's Profit and Loss counts, the profit fields are the
      profit side's extremes, the crossed loss labels are the loss side's
      minimum and maximum, and drawdown and streak are the return-series
      metrics of the same yields. */
  lemma AssembleReportsYields(table: seq<TradeRow>, currentPrice: real, ys: seq<real>)
    requires |table| > 0 && Divisible(table) && |ys| > 0
    ensures Assemble(table, currentPrice, ys).profitCount == ReturnShares.CountOf(ys, ReturnShares.Profit)
    ensures Assemble(table, currentPrice, ys).lossCount == ReturnShares.CountOf(ys, ReturnShares.Loss)
    ensures |Filter(ys, ProfitLoss.IsGain)| > 0 ==>
      && Assemble(table, currentPrice, ys).maximumProfit == Some(Max(Filter(ys, ProfitLoss.IsGain)))
      && Assemble(table, currentPrice, ys).minimumProfit == Some(Min(Filter(ys, ProfitLoss.IsGain)))
    ensures |Filter(ys, ProfitLoss.IsGain)| > 0 ==>
      Assemble(table, currentPrice, ys).meanProfit == Some(Mean(Filter(ys, ProfitLoss.IsGain)))
    ensures |Filter(ys, IsLoss)| > 0 ==>
      Assemble(table, currentPrice, ys).meanLoss == Some(Mean(Filter(ys, IsLoss)))
    ensures |Filter(ys, IsLoss)| > 0 ==>
      && Assemble(table, currentPrice, ys).maximumLoss == Some(Min(Filter(ys, IsLoss)))
      && Assemble(table, currentPrice, ys).minimumLoss == Some(Max(Filter(ys, IsLoss)))
    ensures RiskMetrics.AboveMinusOne(ys) ==>
      Assemble(table, currentPrice, ys).maxDrawdown == Some(RiskMetrics.MaxDrawdown(ys))
    ensures !RiskMetrics.AboveMinusOne(ys) ==> Assemble(table, currentPrice, ys).maxDrawdown.None?
    ensures Assemble(table, currentPrice, ys).maxPeriodsInLoss == RiskMetrics.DurationOfLosses(ys)
  {
    SideCountsAreCategoryCounts(ys);
  }

  /** The profit and loss sides hold exactly the yields the share classifier
      counts as `Profit` and as `Loss`. */
  lemma {:induction false} SideCountsAreCategoryCounts(ys: seq<real>)
    ensures |Filter(ys, ProfitLoss.IsGain)| == ReturnShares.CountOf(ys, ReturnShares.Profit)
    ensures |Filter(ys, IsLoss)| == ReturnShares.CountOf(ys, ReturnShares.Loss)
  {
    if ys != [] {
      SideCountsAreCategoryCounts(ys[..|ys| - 1]);
    }
  }

  /** The summary of a non-empty table for a given current price: MoM relates
      the latest purchase price to the current price, and ROI the opening
      balance to the latest quantity valued at the current price. */
  function SummaryAt(table: seq<TradeRow>, currentPrice: real): (s: Summary)
    requires |table| > 0 && Divisible(table)
    ensures s.lifePeriod == |table|
    ensures ChangesBy(table[|table| - 1].purchasePrice, currentPrice, s.mom)
    ensures ChangesBy(table[0].portfolio, table[|table| - 1].quantity * currentPrice, s.roi)
  {
    var mom := RelativeChange(table[|table| - 1].purchasePrice, currentPrice);
    Assemble(table, currentPrice, Yields(table, mom))
  }

  /** calculate_strategy_stats with the intended price fallback: only an empty
      table fails, and the reported MoM is taken against the quoted price or,
      when the lookup failed, the latest `Sell price`. */
  function StrategySummary(table: seq<TradeRow>, lookup: PriceLookup): (r: Result<Summary, StatsError>)
    requires Divisible(table)
    ensures r.Failure? <==> |table| == 0
    ensures r.Failure? ==> r.error == EmptyTable
    ensures r.Success? ==>
      ChangesBy(table[|table| - 1].purchasePrice, CurrentPrice(lookup, table[|table| - 1].sellPrice), r.value.mom)
  {
    if |table| == 0 then Failure(EmptyTable)
    else Success(SummaryAt(table, CurrentPrice(lookup, table[|table| - 1].sellPrice)))
  }

  /** calculate_strategy_stats as the code runs it: the latest coin is read
      first (an empty table raises there), the price lookup's connection
      failure leaves None and the arithmetic on it raises; otherwise the yields
      column is copied, its last entry overwritten in place by MoM, and the
      record assembled. Off the connection-failure path this is the intended
      summary. */
  method CalculateStrategyStats(table: seq<TradeRow>, lookup: PriceLookup) returns (r: Result<Summary, StatsError>)
    requires Divisible(table)
    ensures |table| == 0 ==> r == Failure(EmptyTable)
    ensures |table| > 0 && lookup.ConnectionFailed? ==> r == Failure(NoPrice)
    ensures !lookup.ConnectionFailed? ==> r == StrategySummary(table, lookup)
  {
    if |table| == 0 {
      return Failure(EmptyTable);
    }
    var n := |table|;
    var last := table[n - 1];
    var price := CurrentPriceAsWritten(lookup, last.sellPrice);
    if price.Failure? {
      return Failure(price.error);
    }
    var currentPrice := price.value;
    CurrentPriceAgrees(lookup, last.sellPrice);
    var mom := RelativeChange(last.purchasePrice, currentPrice);
    var column := new real[n](i requires 0 <= i < n => table[i].profitLoss);
    column[n - 1] := mom;
    assert column[..] == Yields(table, mom);
    r := Success(Assemble(table, currentPrice, column[..]));
  }

  /** Life Period is the row count, and the profit and loss counts together
      never exceed it; they reach it exactly when no yield is zero. */
  lemma CountsWithinLifePeriod(table: seq<TradeRow>, currentPrice: real)
    requires |table| > 0 && Divisible(table)
    ensures var s := SummaryAt(table, currentPrice);
      && s.lifePeriod == |table|
      && s.profitCount + s.lossCount <= s.lifePeriod
    ensures var s := SummaryAt(table, currentPrice);
      var ys := Yields(table, s.mom);
      (forall i | 0 <= i < |ys| :: ys[i] != 0.0) ==> s.profitCount + s.lossCount == s.lifePeriod
  {
    var ys := Yields(table, RelativeChange(table[|table| - 1].purchasePrice, currentPrice));
    FilterSplit(ys, ProfitLoss.IsGain, IsLoss);
    if forall i | 0 <= i < |ys| :: ys[i] != 0.0 {
      assert forall x :: x in ys ==> ProfitLoss.IsGain(x) || IsLoss(x);
    }
  }

  /** The loss side is reported with crossed labels: `Maximum Loss` is the most
      negative yield and `Minimum Loss` the least negative one, so
      Maximum Loss <= Minimum Loss < 0; both are NaN when there is no loss. */
  lemma CrossedLossLabels(table: seq<TradeRow>, currentPrice: real)
    requires |table| > 0 && Divisible(table)
    ensures var s := SummaryAt(table, currentPrice);
      (s.lossCount == 0 <==> s.maximumLoss.None?) && (s.lossCount == 0 <==> s.minimumLoss.None?)
    ensures var s := SummaryAt(table, currentPrice);
      var ys := Yields(table, s.mom);
      s.lossCount > 0 ==>
        && s.maximumLoss.value in ys && s.minimumLoss.value in ys
        && s.maximumLoss.value <= s.minimumLoss.value < 0.0
        && (forall y :: y in ys && y < 0.0 ==> s.maximumLoss.value <= y <= s.minimumLoss.value)
  {
  }

  /** The profit side keeps the natural labels: 0 < Minimum Profit <= Maximum
      Profit, bounding every positive yield; both are NaN without a profit. */
  lemma ProfitLabels(table: seq<TradeRow>, currentPrice: real)
    requires |table| > 0 && Divisible(table)
    ensures var s := SummaryAt(table, currentPrice);
      (s.profitCount == 0 <==> s.maximumProfit.None?) && (s.profitCount == 0 <==> s.minimumProfit.None?)
    ensures var s := SummaryAt(table, currentPrice);
      var ys := Yields(table, s.mom);
      s.profitCount > 0 ==>
        && s.minimumProfit.value in ys && s.maximumProfit.value in ys
        && 0.0 < s.minimumProfit.value <= s.maximumProfit.value
        && (forall y :: y in ys && y > 0.0 ==> s.minimumProfit.value <= y <= s.maximumProfit.value)
  {
  }

  /** The loss run ending at position i is no longer than the number of losses
      among the first i + 1 yields. */
  lemma {:induction false} RunAtMostLosses(ys: seq<real>, i: nat)
    requires i < |ys|
    ensures RiskMetrics.LossRunEndingAt(ys, i) <= |Filter(ys[..i + 1], IsLoss)|
  {
    assert ys[..i + 1] == ys[..i] + [ys[i]];
    FilterAppend(ys[..i], ys[i], IsLoss);
    if ys[i] < 0.0 && i > 0 {
      RunAtMostLosses(ys, i - 1);
    }
  }

  lemma {:induction false} FilterPrefixShorter(ys: seq<real>, k: nat)
    requires k <= |ys|
    ensures |Filter(ys[..k], IsLoss)| <= |Filter(ys, IsLoss)|
    decreases |ys| - k
  {
    if k == |ys| {
      assert ys[..k] == ys;
    } else {
      FilterPrefixShorter(ys, k + 1);
      assert ys[..k + 1] == ys[..k] + [ys[k]];
      FilterAppend(ys[..k], ys[k], IsLoss);
    }
  }

  /** `Max Periods in Loss` never exceeds `Loss Count`, and the two are zero
      together. */
  lemma StreakWithinLossCount(table: seq<TradeRow>, currentPrice: real)
    requires |table| > 0 && Divisible(table)
    ensures var s := SummaryAt(table, currentPrice);
      s.maxPeriodsInLoss <= s.lossCount && (s.lossCount == 0 <==> s.maxPeriodsInLoss == 0)
  {
    var s := SummaryAt(table, currentPrice);
    var ys := Yields(table, s.mom);
    var i :| 0 <= i < |ys| && s.maxPeriodsInLoss == RiskMetrics.LossRunEndingAt(ys, i);
    RunAtMostLosses(ys, i);
    FilterPrefixShorter(ys, i + 1);
    if s.maxPeriodsInLoss == 0 {
      RiskMetrics.DurationZeroIff(ys);
    }
  }
}

=== FILE: wrappers.dfy ===
/** Option and Result values used for the absent rows, the NaN outcomes and the
    exceptions of the modelled code. */
module Wrappers {

  datatype Option<+T> = None | Some(value: T)

  datatype Result<+R, +E> = Success(value: R) | Failure(error: E)
}
